=== FILE: README.md ===
# BCA Point 2.0 — a Dafny model of the study portal's logic

BCA Point 2.0 is a single-page study portal for BCA students. The catalog is
four lists: categories, semesters, subjects and materials (PDF notes and
papers). It ships inside the bundle as JSON. An admin screen adds its own
records to four `localStorage` keys, and most pages merge those into the
shipped lists. Students sign in with hard-coded accounts. They browse
category → semester → subject → PDF, search and sort the materials, save
materials, and keep a recently-viewed history, a profile and a chat with a
canned keyword assistant. All state lives in the browser's local storage.

This project models the portal's logic as pure Dafny functions over
immutable values and proves properties of them:

- `Storage` and `Catalog`: a stored key is read as the outcome of
  `JSON.parse` (missing, unparsable, null, array, string, …). The catalog's
  record shapes are written in the same terms.
- `Merge`: the hook that merges the shipped lists with the admin lists.
- `Overlay`: the admin screen. It covers load and save, the four add forms
  with their id scheme, the cascading deletes, the material upload, the
  labelled list and the counts.
- `Browse`: the category, semester and subject pages and their route paths.
- `Search`: the advanced search. It covers name enrichment, the four
  narrowing steps and the four sort orders over a JavaScript comparator
  (`Sorting`).
- `Dashboard`: the home page's saved and recent lists, the category and
  subject search, and quick open.
- `Reading`: the PDF page's viewed-history effects and bookmark toggle.
- `Viewer`: the PDF viewer's page navigation.
- `Profile`: the profile page.
- `Session` and `Card`: sign-in, logout, the admin guard and the premium
  lock.
- `Assistant`: the assistant's keyword replies and its send/deliver cycle.
- `Seqs` and `Text`: the array and string methods the code relies on:
  `filter`, `find`, `includes`, `indexOf`/`splice`, `slice(-n)`,
  `reverse`, `trim`, `toLowerCase` and path splitting.

Notable behaviour of the code as written:

- **Deleting a category cascades one level only.** It removes the
  category's admin semesters, and the admin subjects and materials whose
  own `categoryId` names the category. Subjects created by the add form
  carry no category, so they survive even when their semester is removed.
  A material filed under the deleted category is removed whatever its
  subject. A material under such a surviving subject stays only when it
  is filed under another category. See `Overlay.CascadeIsOneLevel`.
- **`useMergedData` has no `Array.isArray` check, unlike the admin
  screen's loader.** A stored JSON object makes the render throw. A stored
  JSON string spreads into single characters. See
  `Merge.HookLacksArrayCheck`.
- **The PDF page reads only the shipped materials.** An admin-added
  material opens the "not found" view even though search lists it.
  Likewise the profile page's saved list counts shipped materials only.
- **Both effects of the PDF page write `bca_viewed`.** The second one is
  commented as a bookmark check, but it moves the id to the end of
  `bca_viewed`. The page's `bookmarked` flag starts false and is never
  read from `bca_bookmarks`. The model keeps both effects as written
  (`Reading.Visit`).

## Model

| member | source | states |
|---|---|---|
| Storage.ArrayOrEmpty | src/admin/AdminDashboard.jsx:54-76 | a parsed array is used as is; any other parsed value counts as the empty list |
| Storage.Remove | src/components/Navbar.jsx:9-13 | `removeItem` drops exactly that key and leaves every other key and value in place |
| Catalog.OrEmpty | src/pages/AdvancedSearchPage.jsx:53 | `x \|\| ""` gives the string when it is non-empty and "" when it is absent or empty |
| Merge.AdminPart | src/hooks/useMergedData.js:14-40 | each admin key contributes a list when it parses to an array or to a falsy or failed value; a JSON string contributes characters; any other truthy value cannot be spread |
| Merge.MergeKey | src/hooks/useMergedData.js:42-47 | a merged list is well-formed exactly when the admin part is a list, and is then the shipped list followed by it; a truthy non-string, non-array value throws |
| Merge.UseMergedData | src/hooks/useMergedData.js:7-48 | the hook throws iff some key holds a truthy non-array, non-string value, and yields four well-formed lists iff every key does; each list is then the shipped list followed by the stored admin list |
| Merge.MergedShape | src/hooks/useMergedData.js:42-47 | a merged list starts with the entire shipped list and then holds the admin list, with the two lengths adding up |
| Merge.FallbacksGiveShippedList | src/hooks/useMergedData.js:14-19 | a missing key, `null`, a falsy value or unparsable text leaves exactly the shipped list |
| Merge.InvalidKeyIsLocal | src/hooks/useMergedData.js:14-40 | corrupting one key empties only that key's admin list: each key has its own `try` |
| Merge.HookLacksArrayCheck | src/hooks/useMergedData.js:15-16 | a stored object or string is an empty list to the admin loader, but the hook throws on the object and spreads the string into characters |
| Overlay.Load | src/admin/AdminDashboard.jsx:54-76 | unparsable text under any one key empties all four lists (one `try`); otherwise each list is its parsed array, or empty |
| Overlay.LoadSaved | src/admin/AdminDashboard.jsx:54-93 | loading what the save effects wrote gives back the same four lists |
| Overlay.NewId | src/admin/AdminDashboard.jsx:128 | a new id is `admin_<kind>_` followed by the clock reading in decimal |
| Overlay.NewIdCollidesIffSameMillisecond | src/admin/AdminDashboard.jsx:128 | two ids of one kind are equal exactly when they were made in the same millisecond |
| Overlay.AddCategory | src/admin/AdminDashboard.jsx:123-139 | a blank title changes nothing; otherwise exactly one category is appended (trimmed title, trimmed description or the default text, premium flag) and the form is cleared |
| Overlay.AddSemester | src/admin/AdminDashboard.jsx:153-166 | a blank name changes nothing; otherwise one semester is appended with the trimmed name and the chosen category, or null when none is chosen |
| Overlay.AddSubject | src/admin/AdminDashboard.jsx:177-190 | a blank name changes nothing; otherwise one subject is appended with the trimmed name, the chosen semester and no category |
| Overlay.SameMillisecondCategoriesCollide | src/admin/AdminDashboard.jsx:128 | two categories added in the same millisecond share an id |
| Overlay.DeleteCategory | src/admin/AdminDashboard.jsx:141-150 | if declined, nothing changes; if confirmed, it removes the category and exactly the admin semesters, subjects and materials that name it, and keeps everything else |
| Overlay.DeleteSemester | src/admin/AdminDashboard.jsx:168-174 | if confirmed, it removes the semester and exactly the admin subjects and materials filed under it; the categories are kept |
| Overlay.DeleteSubject | src/admin/AdminDashboard.jsx:192-197 | if confirmed, it removes the subject and exactly its admin materials |
| Overlay.DeleteMaterial | src/admin/AdminDashboard.jsx:271-275 | if confirmed, it removes exactly the materials with that id |
| Overlay.DeletesPreserveOrder | src/admin/AdminDashboard.jsx:141-197 | every delete leaves the survivors of each list in their original order |
| Overlay.DeleteCategoryCounts | src/admin/AdminDashboard.jsx:141-150 | a category delete keeps every copy of each survivor in all four lists and no copy of what it removes |
| Overlay.DeleteSemesterCounts | src/admin/AdminDashboard.jsx:168-174 | a semester delete keeps every copy of each surviving semester, subject and material and none of the removed ones |
| Overlay.DeleteSubjectCounts | src/admin/AdminDashboard.jsx:192-197 | a subject delete keeps every copy of each surviving subject and material and none of the removed ones |
| Overlay.DeleteMaterialCounts | src/admin/AdminDashboard.jsx:271-275 | a material delete keeps every copy of each other material and none with the id |
| Overlay.DeleteCategoryKeepsFormSubjects | src/admin/AdminDashboard.jsx:141-190 | subjects created by the add form never name a category, so a category delete leaves them all |
| Overlay.CascadeIsOneLevel | src/admin/AdminDashboard.jsx:145-148 | a subject filed under a deleted category's semester outlives it: the cascade is not transitive |
| Overlay.ResetMaterialForm | src/admin/AdminDashboard.jsx:200-207 | clearing the material form empties the entry fields but keeps the three selections |
| Overlay.AddMaterial | src/admin/AdminDashboard.jsx:214-269 | a blank title, or neither URL nor file, gives the matching error and changes nothing; a file leaves lists and form as they are and waits for encoding with exactly the submitted title, file, selections, year and premium flag; a URL appends one material with trimmed fields; the other lists never change |
| Overlay.SubmitFileThenFinish | src/admin/AdminDashboard.jsx:214-269 | a file submission followed by its encoding appends the same material a URL submission would, except that it carries the encoded data and the file name, and resets the form current at that time |
| Overlay.InitialFormRejected | src/admin/AdminDashboard.jsx:42-220 | the form as first shown is rejected with the title error, and resetting a form with the first-shown selections gives the first-shown form back |
| Overlay.FinishUpload | src/admin/AdminDashboard.jsx:228-249 | once the file is encoded, exactly one material with the encoded data and the submitted values is appended, and the current form is reset |
| Overlay.BlankUrlIsStoredEmpty | src/admin/AdminDashboard.jsx:222-256 | a URL of white space passes the untrimmed check and is stored as the empty string |
| Overlay.CategoryLabel | src/admin/AdminDashboard.jsx:279-288 | the label is the first matching category's title when that is non-empty; the raw id when no category matches or the first match has an empty title |
| Overlay.SemesterLabel | src/admin/AdminDashboard.jsx:281-289 | the label is the first matching semester's name when that is non-empty; the raw id when no semester matches or the first match has an empty name |
| Overlay.SubjectLabel | src/admin/AdminDashboard.jsx:283-290 | the label is the first matching subject's name when that is non-empty; the raw id when no subject matches or the first match has an empty name |
| Overlay.LabelsFallBackToIds | src/admin/AdminDashboard.jsx:277-293 | each label is the name the search page would show for the id over the shipped and admin lists, or the raw id where that name is empty |
| Overlay.EnrichedCustom | src/admin/AdminDashboard.jsx:277-293 | one labelled row per admin material, in order, with names looked up in shipped plus admin lists |
| Overlay.DanglingCategoryShowsRawId | src/admin/AdminDashboard.jsx:280-288 | a material whose category no longer exists shows its raw category id |
| Overlay.Counts | src/admin/AdminDashboard.jsx:111-115 | each stat card counts shipped plus admin records |
| Overlay.CountsMatchMergedLists | src/hooks/useMergedData.js:42-47 | once saved, the admin counts equal the lengths of the lists the rest of the portal merges |
| Browse.CategoryPath | src/components/CategoryCard.jsx:17 | the category route is the path with segments `category`, id |
| Browse.SemesterPath | src/pages/CategoryPage.jsx:48-50 | the semester route is the path `category`, id, `semester`, id |
| Browse.SubjectPath | src/pages/SemesterPage.jsx:39-43 | the subject route is the path `category`, id, `semester`, id, `subject`, id |
| Browse.PdfPath | src/pages/SubjectPage.jsx:48-50 | the reader route is the path `pdf`, id |
| Browse.RouteParamsRoundTrip | src/pages/SubjectPage.jsx:48-50 | for slash-free ids, splitting each route path gives back exactly the segments and ids that built it |
| Browse.CurrentCategory | src/pages/CategoryPage.jsx:19 | the page's category is the first one in the list with the route id, and none exists exactly when no category carries it |
| Browse.ShippedCategoryShadowsAdmin | src/pages/CategoryPage.jsx:15-19 | over merged lists, a shipped category wins over an admin one with the same id |
| Browse.CategorySemesters | src/pages/CategoryPage.jsx:24-35 | the listed semesters are exactly those without a category, plus those whose category is the route's |
| Browse.SemesterVisibility | src/pages/CategoryPage.jsx:27-33 | a semester without a category (or with an empty one) shows under every category; one with a category shows only under it |
| Browse.CategorySemestersInOrder | src/pages/CategoryPage.jsx:24-35 | the listed semesters keep the merged order |
| Browse.SemesterSubjects | src/pages/SemesterPage.jsx:23-26 | the listed subjects are exactly those of the route's semester, whatever the category |
| Browse.SemesterSubjectsShippedFirst | src/pages/SemesterPage.jsx:23-26 | the shipped subjects come first, followed by the admin ones, each in its own order |
| Browse.SubjectMaterials | src/pages/SubjectPage.jsx:26-35 | the listed materials are exactly those matching all three route ids |
| Browse.SubjectMaterialsNarrowEach | src/pages/SubjectPage.jsx:26-35 | the three-way match equals filtering by category, then semester, then subject, and keeps the order |
| Browse.WrongCategoryExcluded | src/pages/SubjectPage.jsx:28-33 | a material of the right subject filed under another category is not listed |
| Search.SubjectName | src/pages/AdvancedSearchPage.jsx:28-34 | the name of the first subject with the id, or "" when there is none |
| Search.SemesterName | src/pages/AdvancedSearchPage.jsx:29-35 | the name of the first semester with the id, or "" |
| Search.CategoryName | src/pages/AdvancedSearchPage.jsx:30-36 | the title of the first category with the id, or "" |
| Search.Enrich | src/pages/AdvancedSearchPage.jsx:25-40 | one item per merged material, in order, each carrying its resolved names |
| Search.Apply | src/pages/AdvancedSearchPage.jsx:45-70 | a step keeps exactly the items its test admits, and all of them when it is off |
| Search.ApplyIsFilter | src/pages/AdvancedSearchPage.jsx:45-70 | every step, on or off, is the order-preserving filter by its test |
| Search.StepsCommute | src/pages/AdvancedSearchPage.jsx:45-70 | any two narrowing steps commute, so their order does not affect the result |
| Search.Narrow | src/pages/AdvancedSearchPage.jsx:42-70 | an item is in the result iff it passes every active step; each selected id then matches, and a non-blank query matches title, subject, category or year |
| Search.NarrowIsOrderedSelection | src/pages/AdvancedSearchPage.jsx:42-70 | before sorting, the result is the single filter by all the tests together, a subsequence of the items |
| Search.BlankTextKeepsAll | src/pages/AdvancedSearchPage.jsx:46 | a query of white space only keeps every item |
| Search.Order | src/pages/AdvancedSearchPage.jsx:72-89 | each sort option permutes the items; an unknown option keeps them as they are |
| Search.Results | src/pages/AdvancedSearchPage.jsx:42-91 | the results are the narrowed items put in the chosen order, a permutation of them, so an item shows iff it passes every step |
| Search.ResultsInRequestedOrder | src/pages/AdvancedSearchPage.jsx:42-91 | "newest" results run from the latest `createdAt` down, "oldest" results the other way, and an unknown option keeps the admitted items in catalog order |
| Search.TimeOrders | src/pages/AdvancedSearchPage.jsx:73-80 | "newest" orders every pair by descending `createdAt` (missing counts as 0); "oldest" by ascending |
| Search.TitleOrders | src/pages/AdvancedSearchPage.jsx:81-88 | for a consistent `localeCompare`, "az" leaves no neighbours out of order, and "za" is the reverse order |
| Search.NewestIdempotent | src/pages/AdvancedSearchPage.jsx:73-76 | sorting a "newest" result by "newest" again changes nothing |
| Sorting.SortBy | src/pages/AdvancedSearchPage.jsx:74-88 | sorting a copy yields a permutation of the input |
| Sorting.SortBySorted | src/pages/AdvancedSearchPage.jsx:74-88 | the sorted copy has no neighbours that the comparator puts out of order |
| Sorting.SortByIdempotent | src/pages/AdvancedSearchPage.jsx:74-88 | sorting twice is sorting once |
| Dashboard.Bookmarked | src/pages/Dashboard.jsx:71-80 | a material is listed iff its id is in the stored array; a non-array or unparsable value lists nothing |
| Dashboard.BookmarkedInCatalogOrder | src/pages/Dashboard.jsx:76 | saved materials appear in catalog order, not in the order they were saved |
| Dashboard.Resolve | src/pages/Dashboard.jsx:91-93 | every resolved material carries one of the ids and is the first material in the list with its id, and there are never more than there are ids |
| Dashboard.ResolveAllFound | src/pages/Dashboard.jsx:91-93 | when every id has a material, each position resolves to a material with that id |
| Dashboard.ResolveSkipsDangling | src/pages/Dashboard.jsx:91-93 | an id with no material contributes nothing: resolving is the same with it removed |
| Dashboard.Recent | src/pages/Dashboard.jsx:83-97 | at most five materials, each with an id among the last five stored ids; a non-array lists nothing |
| Dashboard.RecentAllFound | src/pages/Dashboard.jsx:89-93 | when each of the last five ids names a material, there is one material per id and position `i` holds the id viewed `i` visits before the latest |
| Dashboard.LatestFirst | src/pages/Dashboard.jsx:89 | the most recently viewed id heads the list when it names a material |
| Dashboard.FilteredCategories | src/pages/Dashboard.jsx:100-112 | a category is listed iff it passes the plan filter and its title or description contains the search text, ignoring case; the list keeps the catalog's order |
| Dashboard.EmptySearchIsPlanFilter | src/pages/Dashboard.jsx:106-112 | an empty search leaves only the plan filter |
| Dashboard.EmptySearchKeepsPlan | src/pages/Dashboard.jsx:101-105 | with no search, "all" lists every category, and the premium and free lists split them |
| Dashboard.CategorySearchIgnoresCase | src/pages/Dashboard.jsx:107-111 | searches differing only in letter case list the same categories |
| Dashboard.SubjectMatches | src/pages/Dashboard.jsx:114-120 | a blank search matches nothing; otherwise exactly the subjects whose name contains it, ignoring case, in the order of the subject list |
| Dashboard.SubjectSearchIgnoresCase | src/pages/Dashboard.jsx:114-120 | searches equal once lower-cased match the same subjects in the same order, blank ones included |
| Dashboard.SubjectMatchesAppend | src/pages/Dashboard.jsx:114-120 | the matches over shipped plus admin subjects are the shipped matches followed by the admin matches |
| Dashboard.QuickOpenPath | src/pages/Dashboard.jsx:122-129 | quick open goes to the subject page under the "notes" category and the subject's own semester |
| Dashboard.QuickOpenRoundTrip | src/pages/Dashboard.jsx:122-129 | for slash-free ids, the quick-open path splits back into "notes", the semester and the subject |
| Reading.Lookup | src/pages/PDFPage.jsx:16 | a material is found iff a shipped material carries the id, and it is the first shipped material that does |
| Reading.AdminMaterialNotFound | src/pages/PDFPage.jsx:16 | an admin material absent from the shipped list is "not found" here, though the merged list has it |
| Reading.ListOf | src/pages/PDFPage.jsx:22-29 | a missing key or unparsable text gives an empty list to update; an array is used as is; anything else gets no list |
| Reading.MarkViewed | src/pages/PDFPage.jsx:20-35 | adds the id at the end exactly when it is not yet listed; there is no write without a material or a list |
| Reading.MoveToEnd | src/pages/PDFPage.jsx:38-59 | removes the id's first occurrence and appends it, so the id ends up last |
| Reading.Visit | src/pages/PDFPage.jsx:20-59 | after a visit the id is last, and the list gains it only if it was absent, otherwise holding the same entries; without a material or a list, storage is left alone |
| Reading.VisitMovesId | src/pages/PDFPage.jsx:20-59 | over any list, a visit drops the id's first occurrence, if any, and appends it |
| Reading.VisitKeepsOthersInOrder | src/pages/PDFPage.jsx:52-57 | the ids before the visited one keep their earlier relative order |
| Reading.VisitPutsIdLast | src/pages/PDFPage.jsx:20-59 | from a list without duplicates, a visit keeps the other ids in order, puts this id last, and keeps the list free of duplicates |
| Reading.MoveToEndIdempotent | src/pages/PDFPage.jsx:38-59 | moving the same id to the end twice is the same as once |
| Reading.VisitWithoutListChangesNothing | src/pages/PDFPage.jsx:20-59 | without a material, or over a stored value that is not a list, a visit leaves storage alone |
| Reading.ToggleBookmark | src/pages/PDFPage.jsx:61-83 | an absent id is appended once at the end; a present id has every copy removed while the other ids keep their order and counts; the flag says which |
| Reading.ToggleTwiceRestores | src/pages/PDFPage.jsx:61-83 | saving then unsaving an id that was not saved gives back the original list |
| Reading.ToggleWithoutListChangesNothing | src/pages/PDFPage.jsx:61-62 | without a material, or over a stored value that is not a list, the toggle writes nothing |
| Viewer.InitialIsInert | src/components/PDFViewer.jsx:12-13 | the first state is valid and both buttons start disabled and do nothing |
| Viewer.LoadSuccess | src/components/PDFViewer.jsx:16-19 | loading records the page count, returns to page 1 and leaves a valid state |
| Viewer.Prev | src/components/PDFViewer.jsx:24-25 | goes back one page unless on the first; never leaves the valid range |
| Viewer.Next | src/components/PDFViewer.jsx:26-27 | goes forward one page while below the count (a missing count counts as 0); never leaves the valid range |
| Viewer.NoOpIffDisabled | src/components/PDFViewer.jsx:54-65 | a button does nothing exactly when it is shown disabled |
| Viewer.PrevNextInverse | src/components/PDFViewer.jsx:24-27 | away from the ends, next undoes prev and prev undoes next |
| Viewer.NextBeforeLoad | src/components/PDFViewer.jsx:26-27 | before the page count arrives, next never moves |
| Viewer.NextTimes | src/components/PDFViewer.jsx:26-27 | any number of presses of next keeps the state valid |
| Viewer.NextTimesStopsAtLast | src/components/PDFViewer.jsx:26-27 | k presses advance k pages but stop at the last page |
| Profile.LoadDetails | src/pages/ProfilePage.jsx:26-45 | each field is the parsed string or ""; a missing, unparsable, null or non-object profile leaves all three empty |
| Profile.VisitCountsNewIdsOnly | src/pages/ProfilePage.jsx:47-53 | the viewed count rises by one exactly when a visit opens a material whose id the list lacked; revisits and failed visits leave it unchanged |
| Profile.Load | src/pages/ProfilePage.jsx:25-67 | the page shows the form exactly when every field is empty; it also counts the viewed ids and lists the saved shipped materials |
| Profile.NoProfileOpensForm | src/pages/ProfilePage.jsx:27-45 | without a parsable profile object the page opens the empty form |
| Profile.HandleChange | src/pages/ProfilePage.jsx:69-72 | the edited field takes the new value and nothing else changes |
| Profile.Stringify | src/pages/ProfilePage.jsx:75 | the written profile parses back to the same three fields |
| Profile.Save | src/pages/ProfilePage.jsx:74-80 | saving shows the card and writes a profile that loads back unchanged |
| Profile.Edit | src/pages/ProfilePage.jsx:82-85 | editing opens the form with the fields unchanged |
| Profile.Delete | src/pages/ProfilePage.jsx:87-99 | if declined, nothing changes; if confirmed, the key is removed and the empty form reopens |
| Profile.SaveThenLoad | src/pages/ProfilePage.jsx:25-80 | a saved profile loads back unchanged, in card view iff some field is set: saving an empty profile shows the card now but the form on the next visit |
| Profile.DeleteThenLoad | src/pages/ProfilePage.jsx:87-99 | after a confirmed delete, the next visit shows the same empty form |
| Profile.SavedIgnoresAdminMaterials | src/pages/ProfilePage.jsx:55-66 | an admin material is never in the profile's saved list, even when its id is saved |
| Session.Login | src/pages/LoginPage.jsx:16-75 | sign-in succeeds iff both fields are filled and the pair is one of the two accounts exactly; it sets the auth and premium flags and the matching profile and touches no other key; otherwise the right error shows and nothing is written |
| Session.CredentialsAreExact | src/pages/LoginPage.jsx:29-53 | a capital letter or a trailing space in either field is a failed sign-in |
| Session.SignInProfileShowsCard | src/pages/LoginPage.jsx:33-40 | the profile a sign-in writes opens the profile page in card view with those details |
| Session.Logout | src/components/Navbar.jsx:9-13 | logout removes both student flags and keeps every other key |
| Session.AdminLogin | src/admin/AdminLogin.jsx:17-34 | admin sign-in succeeds iff the pair is the admin account exactly, and then sets only the admin flag; otherwise the right error shows |
| Session.AdminGuard | src/components/AdminProtectedRoute.jsx:4-12 | the admin screen renders exactly when `bca_admin_auth` holds the text "true"; otherwise the visitor is sent to `/admin/login` |
| Session.AdminGuardFollowsSession | src/components/AdminProtectedRoute.jsx:4-12 | the admin guard admits after an admin sign-in, not after the admin logout, and not for flag text other than exactly "true" |
| Session.AdminLogout | src/admin/AdminDashboard.jsx:117-120 | admin logout removes only the admin flag |
| Session.StudentSessionLeavesAdminAlone | src/components/AdminProtectedRoute.jsx:5 | student sign-in and logout never change whether the admin guard admits |
| Card.Click | src/components/CategoryCard.jsx:11-18 | a click navigates iff the card is not locked, and then to `/category/<id>` of the card's own category, whose segments split back out when the id has no slash |
| Card.Badge | src/components/CategoryCard.jsx:40-49 | only premium cards get a badge: "LOCKED" iff the card is locked, "PREMIUM" iff the user is premium |
| Card.WhoSeesLocks | src/components/CategoryCard.jsx:7-9 | free categories are never locked, a premium user sees no locks, and a premium category is locked whenever `bca_isPremium` is missing or not exactly "true" |
| Card.LocksFollowSignIn | src/components/CategoryCard.jsx:7-9 | premium cards open after the premium sign-in, stay locked for the plain student, and lock again after logout |
| Assistant.Reply | src/pages/AiAssistantPage.jsx:7-31 | the reply is the first topic in rule order whose keyword occurs in the lower-cased message, else the fallback |
| Assistant.ReplyIgnoresCase | src/pages/AiAssistantPage.jsx:8 | messages differing only in letter case get the same reply |
| Assistant.ReplyOfLowered | src/pages/AiAssistantPage.jsx:8 | lower-casing a message first changes nothing |
| Assistant.PyqNeedsNoOs | src/pages/AiAssistantPage.jsx:22-28 | the previous-year-papers reply goes only to messages without "os" anywhere in them |
| Assistant.PurposeOfPyqGetsOs | src/pages/AiAssistantPage.jsx:22-24 | "Purpose of PYQ" gets the OS reply, because "purpose" contains "os" |
| Assistant.FirstExchange | src/pages/AiAssistantPage.jsx:34-78 | on a fresh page a blank message does nothing; otherwise the chat becomes the greeting, the trimmed question and its reply |
| Assistant.Send | src/pages/AiAssistantPage.jsx:46-64 | a blank input or a pending reply does nothing; otherwise the trimmed text is appended, the box clears, and the reply to the trimmed text is pending |
| Assistant.Deliver | src/pages/AiAssistantPage.jsx:66-78 | the delayed reply is appended and the send button works again |
| Assistant.NoSendWhileThinking | src/pages/AiAssistantPage.jsx:48 | while a reply is pending, a second send does nothing, whatever is typed |
| Assistant.SendThenDeliver | src/pages/AiAssistantPage.jsx:46-78 | a send and its delivery add exactly the question and its answer |
| Text.DecimalRoundTrip | src/admin/AdminDashboard.jsx:128 | the decimal text of a clock reading reads back as the same number |
| Text.Trim | src/admin/AdminDashboard.jsx:129 | the result is the input from its first non-space character, everything cut off at either end is white space, and the result neither starts nor ends with white space |
| Text.TrimIdempotent | src/admin/AdminDashboard.jsx:129 | trimming an already trimmed string changes nothing |
| Text.Lower | src/pages/AdvancedSearchPage.jsx:47 | same length; each letter A-Z becomes its lower-case form and every other character is kept |
| Text.FindOccurrence | src/pages/AdvancedSearchPage.jsx:50 | an executable position-by-position search agrees with the `includes` predicate the model uses everywhere: true exactly when the query occurs at some position, which it then reports |
| Text.TrimEmptyIffAllSpace | src/admin/AdminDashboard.jsx:125 | a trimmed string is empty exactly when the input is all white space |
| Text.SplitJoin | src/pages/CategoryPage.jsx:48-50 | joining slash-free segments into a path and splitting it gives the segments back |

## Left out

- Rendering, Tailwind classes, framer-motion animations, the dashboard's parallax and the theme context: presentation only.
- Timers: toasts, the intro splash, the skeleton delay and the clearing of the profile save message are left out. The assistant's 700 ms reply delay is modelled as a separate `Assistant.Deliver` step.
- Toast and alert texts, and the profile page's save message: display strings with no effect on state.
- The PDF viewer's zoom (`scale` clamped to 0.6–2.5): floating point, no effect on any other state.
- Storage.Saved: the `JSON.stringify` / `JSON.parse` round trip is assumed, not modelled; a saved list is taken to read back as the same array.
- `FileReader` encoding is not modelled; its result is an input to `Overlay.FinishUpload`.
- `Date.now()` becomes a parameter `now`, so ids are unique only when the clock readings differ (`Overlay.NewIdCollidesIffSameMillisecond`). A material's id and `createdAt` are taken from one reading, where the source calls the clock twice. `window.confirm` becomes a boolean input.
- `String.prototype.localeCompare` becomes an abstract comparator parameter; the ICU collation itself is not modelled.
- Text.Lower: folds ASCII letters only, whereas `toLowerCase` also folds other scripts.
- Search.Order: sort stability is not proved, and neither is the order between non-adjacent items of the title sorts.
- Search.TitleOrders: assumes `localeCompare` never calls both `a > b` and `b > a`.
- Reading.MarkViewed: a value that parses to a non-array is not modelled in detail. Each branch of the source either throws or skips the write, so the model only states that storage is unchanged.
- Reading.ToggleBookmark: the same applies. A throw and a skipped write are not told apart.
- Profile.LoadDetails: profile fields are modelled as optional strings. A truthy non-string field (a number, say) is not represented.
- Session.Login: the `bca_profile` write is recorded as its parsed fields, not as JSON text.
- The route table in `App.jsx`, `ProtectedRoute.jsx` (not part of this model), `main.jsx`, React `StrictMode`, and back navigation (`navigate(-1)`): routing glue with no logic of its own.
- The shipped JSON data files are not part of this model. The shipped lists are parameters.

=== FILE: assistant.dfy ===
/** The study assistant: a fixed keyword table answers each message, and the
    send button appends the user's message and waits for the reply. */
module Assistant {

  import opened Seqs
  import opened Text

  /** The six canned replies, named by their subject. */
  datatype Topic = Dbms | CProgramming | ExamPrep | Os | Pyq | Fallback

  /** The keyword tests, on the lower-cased message. */
  predicate AsksDbms(t: string)         { Includes(t, "dbms") }
  predicate AsksC(t: string)            { Includes(t, "c programming") || Includes(t, "c lang") }
  predicate AsksExam(t: string)         { Includes(t, "exam") || Includes(t, "prepare") }
  predicate AsksOs(t: string)           { Includes(t, "os") || Includes(t, "operating system") }
  predicate AsksPyq(t: string)          { Includes(t, "pyq") || Includes(t, "previous year") }

  /** `getLocalAiReply`: the first rule whose keyword occurs wins. */
  function Reply(message: string): (r: Topic)
    ensures var t := Lower(message);
      && (r == Dbms <==> AsksDbms(t))
      && (r == CProgramming <==> !AsksDbms(t) && AsksC(t))
      && (r == ExamPrep <==> !AsksDbms(t) && !AsksC(t) && AsksExam(t))
      && (r == Os <==> !AsksDbms(t) && !AsksC(t) && !AsksExam(t) && AsksOs(t))
      && (r == Pyq <==> !AsksDbms(t) && !AsksC(t) && !AsksExam(t) && !AsksOs(t) && AsksPyq(t))
      && (r == Fallback <==> !AsksDbms(t) && !AsksC(t) && !AsksExam(t) && !AsksOs(t) && !AsksPyq(t))
  {
    var t := Lower(message);
    if AsksDbms(t) then Dbms
    else if AsksC(t) then CProgramming
    else if AsksExam(t) then ExamPrep
    else if AsksOs(t) then Os
    else if AsksPyq(t) then Pyq
    else Fallback
  }

  /** Messages differing only in letter case get the same reply. */
  lemma ReplyIgnoresCase(m1: string, m2: string)
    requires Lower(m1) == Lower(m2)
    ensures Reply(m1) == Reply(m2)
  {
  }

  /** Lower-casing a message first changes nothing. */
  lemma ReplyOfLowered(m: string)
    ensures Reply(Lower(m)) == Reply(m)
  {
    LowerIdempotent(m);
  }

  /** The OS rule is a bare substring test placed before the PYQ rule, so the
      PYQ reply is given only to messages without "os" anywhere in them. */
  lemma PyqNeedsNoOs(m: string)
    ensures Reply(m) == Pyq ==> !Includes(Lower(m), "os")
  {
  }

  /** "Purpose of PYQ" asks about previous-year papers but gets the OS reply:
      "os" occurs inside "purpose". */
  lemma PurposeOfPyqGetsOs()
    ensures Reply("Purpose of PYQ") == Os
  {
    var t := Lower("Purpose of PYQ");
    assert t == "purpose of pyq";
    assert OccursAt(t, "os", 4);
    MissingCharExcludes(t, "dbms", 0);
    MissingCharExcludes(t, "c programming", 0);
    MissingCharExcludes(t, "c lang", 0);
    MissingCharExcludes(t, "exam", 1);
    MissingCharExcludes(t, "prepare", 4);
  }

  // ----------------------------------------------------------------------
  // Sending

  /** The conversation: the opening greeting, the user's messages and the replies. */
  datatype Message = Greeting | FromUser(text: string) | FromBot(topic: Topic)

  datatype Chat = Chat(messages: seq<Message>, input: string, thinking: bool)

  const Opening: Chat := Chat([Greeting], "", false)

  /** `handleSend`: ignored for a blank input or while a reply is pending;
      otherwise one user message with the trimmed text is appended, the box
      is cleared, and the reply to the trimmed text is pending. */
  function Send(c: Chat): (r: (Chat, Option<Topic>))
    ensures (AllSpace(c.input) || c.thinking) <==> r.1.None?
    ensures r.1.None? ==> r.0 == c
    ensures r.1.Some? ==>
      && r.0.messages == c.messages + [FromUser(Trim(c.input))]
      && Trim(c.input) != ""
      && r.0.input == "" && r.0.thinking
      && r.1.value == Reply(Trim(c.input))
  {
    TrimEmptyIffAllSpace(c.input);
    var trimmed := Trim(c.input);
    if trimmed == "" || c.thinking then (c, None)
    else (Chat(c.messages + [FromUser(trimmed)], "", true), Some(Reply(trimmed)))
  }

  /** The delayed reply arriving: appended, and the box is usable again. */
  function Deliver(c: Chat, topic: Topic): (r: Chat)
    ensures r.messages == c.messages + [FromBot(topic)]
    ensures !r.thinking && r.input == c.input
  {
    Chat(c.messages + [FromBot(topic)], c.input, false)
  }

  /** The first exchange on a fresh page: the greeting, the trimmed question
      and its reply, in that order; a blank first message changes nothing. */
  lemma FirstExchange(typed: string)
    ensures AllSpace(typed) ==> Send(Opening.(input := typed)).1.None?
    ensures !AllSpace(typed) ==>
      var (sent, topic) := Send(Opening.(input := typed));
      Deliver(sent, topic.value).messages == [Greeting, FromUser(Trim(typed)), FromBot(Reply(Trim(typed)))]
  {
  }

  /** While a reply is pending, a second send does nothing, whatever is typed. */
  lemma NoSendWhileThinking(c: Chat, typed: string)
    requires Send(c).1.Some?
    ensures Send(Send(c).0.(input := typed)).1.None?
  {
  }

  /** A send followed by its reply adds exactly the question and the answer. */
  lemma SendThenDeliver(c: Chat)
    requires Send(c).1.Some?
    ensures var (sent, topic) := Send(c);
      var after := Deliver(sent, topic.value);
      after.messages == c.messages + [FromUser(Trim(c.input)), FromBot(Reply(Trim(c.input)))] &&
      !after.thinking
  {
  }
}

=== FILE: browse.dfy ===
/** The three browse pages (category, semester, subject) over the merged
    lists, and the route paths the screens navigate to. */
module Browse {

  import opened Seqs
  import opened Text
  import opened Catalog

  // ----------------------------------------------------------------------
  // Route paths

  /** `/category/${categoryId}`. */
  function CategoryPath(categoryId: string): (path: string)
    ensures path == JoinPath(["category", categoryId])
  {
    JoinPathSnoc([], "category");
    JoinPathSnoc(["category"], categoryId);
    "/category/" + categoryId
  }

  /** `/category/${categoryId}/semester/${semesterId}`. */
  function SemesterPath(categoryId: string, semesterId: string): (path: string)
    ensures path == JoinPath(["category", categoryId, "semester", semesterId])
  {
    var p := CategoryPath(categoryId);
    JoinPathSnoc(["category", categoryId], "semester");
    JoinPathSnoc(["category", categoryId, "semester"], semesterId);
    assert ["category", categoryId] + ["semester"] == ["category", categoryId, "semester"];
    assert ["category", categoryId, "semester"] + [semesterId] == ["category", categoryId, "semester", semesterId];
    p + "/semester/" + semesterId
  }

  /** `/category/${categoryId}/semester/${semesterId}/subject/${subjectId}`. */
  function SubjectPath(categoryId: string, semesterId: string, subjectId: string): (path: string)
    ensures path == JoinPath(["category", categoryId, "semester", semesterId, "subject", subjectId])
  {
    var p := SemesterPath(categoryId, semesterId);
    JoinPathSnoc(["category", categoryId, "semester", semesterId], "subject");
    JoinPathSnoc(["category", categoryId, "semester", semesterId, "subject"], subjectId);
    assert ["category", categoryId, "semester", semesterId] + ["subject"] ==
           ["category", categoryId, "semester", semesterId, "subject"];
    assert ["category", categoryId, "semester", semesterId, "subject"] + [subjectId] ==
           ["category", categoryId, "semester", semesterId, "subject", subjectId];
    p + "/subject/" + subjectId
  }

  /** `/pdf/${id}`. */
  function PdfPath(materialId: string): (path: string)
    ensures path == JoinPath(["pdf", materialId])
  {
    JoinPathSnoc([], "pdf");
    JoinPathSnoc(["pdf"], materialId);
    "/pdf/" + materialId
  }

  /** Ids without a slash come back out of the path's segments unchanged, so
      the router hands each page the ids it was navigated with. */
  lemma RouteParamsRoundTrip(categoryId: string, semesterId: string, subjectId: string, materialId: string)
    requires '/' !in categoryId && '/' !in semesterId && '/' !in subjectId && '/' !in materialId
    ensures SplitPath(CategoryPath(categoryId)) == ["category", categoryId]
    ensures SplitPath(SemesterPath(categoryId, semesterId)) == ["category", categoryId, "semester", semesterId]
    ensures SplitPath(SubjectPath(categoryId, semesterId, subjectId)) ==
            ["category", categoryId, "semester", semesterId, "subject", subjectId]
    ensures SplitPath(PdfPath(materialId)) == ["pdf", materialId]
  {
    SplitJoin(["category", categoryId]);
    SplitJoin(["category", categoryId, "semester", semesterId]);
    SplitJoin(["category", categoryId, "semester", semesterId, "subject", subjectId]);
    SplitJoin(["pdf", materialId]);
  }

  // ----------------------------------------------------------------------
  // Category page

  /** `allCategories.find((c) => c.id === categoryId)`. */
  function CurrentCategory(all: seq<Category>, categoryId: string): (r: Option<Category>)
    ensures r.Some? ==> r.value in all && r.value.id == categoryId
    ensures r.None? <==> forall i :: 0 <= i < |all| ==> all[i].id != categoryId
    ensures forall i ::
              0 <= i < |all| && all[i].id == categoryId && (forall j :: 0 <= j < i ==> all[j].id != categoryId)
              ==> r == Some(all[i])
  {
    Find(all, (c: Category) => c.id == categoryId)
  }

  /** A shipped category shadows an admin category with the same id; an
      admin category is found only when no shipped one matches. */
  lemma ShippedCategoryShadowsAdmin(base: seq<Category>, admin: seq<Category>, categoryId: string)
    ensures CurrentCategory(base, categoryId).Some? ==>
            CurrentCategory(base + admin, categoryId) == CurrentCategory(base, categoryId)
    ensures CurrentCategory(base, categoryId).None? ==>
            CurrentCategory(base + admin, categoryId) == CurrentCategory(admin, categoryId)
  {
    FindAppend(base, admin, (c: Category) => c.id == categoryId);
  }

  /** The visibility rule: a semester without a (truthy) category is shared by
      every category; one with a category is listed under that category only. */
  predicate ListedUnder(sem: Semester, categoryId: string)
  {
    if IsTruthy(sem.categoryId) then sem.categoryId.value == categoryId else true
  }

  /** `categorySemesters`. */
  function CategorySemesters(all: seq<Semester>, categoryId: string): (r: seq<Semester>)
    ensures forall i :: 0 <= i < |r| ==> r[i] in all && ListedUnder(r[i], categoryId)
    ensures forall i :: 0 <= i < |all| && ListedUnder(all[i], categoryId) ==> all[i] in r
  {
    Filter(all, (sem: Semester) => ListedUnder(sem, categoryId))
  }

  /** A semester with no category, or an empty one, is listed under every
      category page; one with a category is listed exactly under that category. */
  lemma SemesterVisibility(all: seq<Semester>, sem: Semester, categoryId: string)
    requires sem in all
    ensures !IsTruthy(sem.categoryId) ==> sem in CategorySemesters(all, categoryId)
    ensures IsTruthy(sem.categoryId) ==>
            (sem in CategorySemesters(all, categoryId) <==> sem.categoryId.value == categoryId)
  {
    FilterMembership(all, (s: Semester) => ListedUnder(s, categoryId), sem);
  }

  /** The listed semesters keep the merged order. */
  lemma CategorySemestersInOrder(all: seq<Semester>, categoryId: string)
    ensures IsSubseq(CategorySemesters(all, categoryId), all)
  {
    FilterIsSubseq(all, (sem: Semester) => ListedUnder(sem, categoryId));
  }

  // ----------------------------------------------------------------------
  // Semester page

  /** `semesterSubjects`: the route's category id takes no part. */
  function SemesterSubjects(all: seq<Subject>, semesterId: string): (r: seq<Subject>)
    ensures forall i :: 0 <= i < |r| ==> r[i] in all && r[i].semesterId == semesterId
    ensures forall i :: 0 <= i < |all| && all[i].semesterId == semesterId ==> all[i] in r
  {
    Filter(all, (s: Subject) => s.semesterId == semesterId)
  }

  /** Over the merged list, the shipped subjects of the semester come first,
      then the admin ones, each in its own order; a subject's own category
      does not hide it. */
  lemma SemesterSubjectsShippedFirst(base: seq<Subject>, admin: seq<Subject>, semesterId: string)
    ensures SemesterSubjects(base + admin, semesterId) ==
            SemesterSubjects(base, semesterId) + SemesterSubjects(admin, semesterId)
    ensures IsSubseq(SemesterSubjects(base + admin, semesterId), base + admin)
  {
    FilterAppend(base, admin, (s: Subject) => s.semesterId == semesterId);
    FilterIsSubseq(base + admin, (s: Subject) => s.semesterId == semesterId);
  }

  // ----------------------------------------------------------------------
  // Subject page

  /** `subjectMaterials`: all three route ids must match. */
  function SubjectMaterials(all: seq<Material>, categoryId: string, semesterId: string, subjectId: string)
    : (r: seq<Material>)
    ensures forall i :: 0 <= i < |r| ==>
      r[i] in all && r[i].categoryId == categoryId && r[i].semesterId == semesterId && r[i].subjectId == subjectId
    ensures forall i :: 0 <= i < |all| ==>
      (all[i].categoryId == categoryId && all[i].semesterId == semesterId && all[i].subjectId == subjectId) ==>
      all[i] in r
  {
    Filter(all, (m: Material) => m.categoryId == categoryId && m.semesterId == semesterId && m.subjectId == subjectId)
  }

  /** The three-way filter is the three single-id filters in turn, so its
      result lies inside each of them and keeps the merged order. */
  lemma SubjectMaterialsNarrowEach(all: seq<Material>, categoryId: string, semesterId: string, subjectId: string)
    ensures SubjectMaterials(all, categoryId, semesterId, subjectId) ==
            Filter(Filter(Filter(all, (m: Material) => m.categoryId == categoryId),
                          (m: Material) => m.semesterId == semesterId),
                   (m: Material) => m.subjectId == subjectId)
    ensures IsSubseq(SubjectMaterials(all, categoryId, semesterId, subjectId), all)
  {
    var c := (m: Material) => m.categoryId == categoryId;
    var s := (m: Material) => m.semesterId == semesterId;
    var u := (m: Material) => m.subjectId == subjectId;
    var cs := (m: Material) => m.categoryId == categoryId && m.semesterId == semesterId;
    FilterFuseTo(all, c, s, cs);
    FilterFuseTo(all, cs, u,
      (m: Material) => m.categoryId == categoryId && m.semesterId == semesterId && m.subjectId == subjectId);
    FilterIsSubseq(all,
      (m: Material) => m.categoryId == categoryId && m.semesterId == semesterId && m.subjectId == subjectId);
  }

  /** A material of the right subject filed under another category is not listed. */
  lemma WrongCategoryExcluded(all: seq<Material>, m: Material, categoryId: string, semesterId: string, subjectId: string)
    requires m.subjectId == subjectId && m.categoryId != categoryId
    ensures m !in SubjectMaterials(all, categoryId, semesterId, subjectId)
  {
    FilterMembership(all,
      (x: Material) => x.categoryId == categoryId && x.semesterId == semesterId && x.subjectId == subjectId, m);
  }
}

=== FILE: card.dfy ===
/** The category card: premium categories are locked for accounts without
    the premium flag. */
module Card {

  import opened Seqs
  import opened Text
  import opened Storage
  import opened Catalog
  import Browse
  import Session

  /** `localStorage.getItem("bca_isPremium") === "true"`. */
  predicate PremiumUser(flags: FlagStore)
  {
    HasText(flags, PremiumKey, "true")
  }

  /** `category.isPremium && !isPremiumUser`. */
  predicate Locked(cat: Category, flags: FlagStore)
  {
    cat.isPremium && !PremiumUser(flags)
  }

  /** `handleClick`: a locked card only raises an alert; an open one navigates
      to its category page. */
  function Click(cat: Category, flags: FlagStore): (to: Option<string>)
    ensures to.None? <==> Locked(cat, flags)
    ensures to.Some? ==> to.value == Browse.CategoryPath(cat.id)
    ensures to.Some? && '/' !in cat.id ==> SplitPath(to.value) == ["category", cat.id]
  {
    if Locked(cat, flags) then None
    else
      var path := Browse.CategoryPath(cat.id);
      assert '/' !in cat.id ==> SplitPath(path) == ["category", cat.id] by {
        if '/' !in cat.id {
          Browse.RouteParamsRoundTrip(cat.id, "", "", "");
        }
      }
      Some(path)
  }

  /** The corner badge: "LOCKED" or "PREMIUM" on premium cards, none otherwise. */
  function Badge(cat: Category, flags: FlagStore): (b: Option<string>)
    ensures b.None? <==> !cat.isPremium
    ensures b == Some("LOCKED") <==> Locked(cat, flags)
    ensures b == Some("PREMIUM") <==> cat.isPremium && PremiumUser(flags)
  {
    if cat.isPremium then Some(if Locked(cat, flags) then "LOCKED" else "PREMIUM") else None
  }

  /** A free category is never locked, and a premium account sees no lock;
      a premium category is locked whenever `bca_isPremium` is missing or
      holds any text other than "true". */
  lemma WhoSeesLocks(cat: Category, flags: FlagStore)
    ensures !cat.isPremium ==> !Locked(cat, flags)
    ensures PremiumUser(flags) ==> !Locked(cat, flags)
    ensures cat.isPremium && (PremiumKey !in flags || flags[PremiumKey] != "true") ==> Locked(cat, flags)
  {
  }

  /** After signing in, premium cards are open exactly for the premium
      account; after logging out they are locked again. */
  lemma LocksFollowSignIn(cat: Category, flags: FlagStore)
    requires cat.isPremium
    ensures !Locked(cat, Session.Login(flags, Session.PremiumEmail, Session.SharedPassword).flags)
    ensures Locked(cat, Session.Login(flags, Session.StudentEmail, Session.SharedPassword).flags)
    ensures Locked(cat, Session.Logout(flags))
  {
  }
}

=== FILE: catalog.dfy ===
/** The four record shapes of the catalog. The same shapes serve the lists
    shipped with the application and the lists the admin screen adds. */
module Catalog {

  import opened Seqs

  datatype Category = Category(
    id: string,
    title: string,
    description: Option<string>,  // absent in some records
    isPremium: bool,              // an absent flag reads as false
    isCustom: bool)

  datatype Semester = Semester(
    id: string,
    name: string,
    categoryId: Option<string>,   // null or absent: the semester belongs to every category
    isCustom: bool)

  datatype Subject = Subject(
    id: string,
    name: string,
    semesterId: string,
    categoryId: Option<string>,   // never written by the admin screen; only stored data can carry it
    isCustom: bool)

  datatype Material = Material(
    id: string,
    title: string,
    pdfUrl: string,               // a remote URL or an embedded data URL
    fileName: Option<string>,
    categoryId: string,
    semesterId: string,
    subjectId: string,
    year: Option<string>,
    isPremium: bool,
    createdAt: Option<int>,
    isCustom: bool)

  /** JavaScript truthiness of an optional string: present and non-empty. */
  predicate IsTruthy(s: Option<string>)
  {
    s.Some? && s.value != ""
  }

  /** `x || ""`. */
  function OrEmpty(s: Option<string>): (r: string)
    ensures IsTruthy(s) ==> r == s.value
    ensures !IsTruthy(s) ==> r == ""
  {
    if s.Some? then s.value else ""
  }

  /** `m.createdAt || 0`: the sort key of the newest/oldest orders. */
  function CreatedKey(m: Material): int
  {
    if m.createdAt.Some? then m.createdAt.value else 0
  }

  /** The shipped lists together, as one value. */
  datatype Lists = Lists(
    categories: seq<Category>,
    semesters: seq<Semester>,
    subjects: seq<Subject>,
    materials: seq<Material>)
}

=== FILE: dashboard.dfy ===
/** The home dashboard: saved and recently viewed materials read from
    storage, the plan filter and search over categories, the subject quick
    search, and the quick-open path of a subject. */
module Dashboard {

  import opened Seqs
  import opened Text
  import opened Storage
  import opened Catalog
  import Browse

  // ----------------------------------------------------------------------
  // Saved materials

  /** The materials whose id is in the stored `bca_bookmarks` array, in the
      order of `materials`; anything but an array gives nothing. The profile
      page uses the same rule over the shipped materials. */
  function Bookmarked(materials: seq<Material>, stored: Stored<string>): (r: seq<Material>)
    ensures forall i :: 0 <= i < |r| ==> r[i] in materials && stored.Array? && r[i].id in stored.items
    ensures forall i :: 0 <= i < |materials| && stored.Array? && materials[i].id in stored.items ==>
      materials[i] in r
    ensures !stored.Array? ==> r == []
  {
    if stored.Array? then Filter(materials, (m: Material) => m.id in stored.items) else []
  }

  /** Saved materials follow the catalog's order, not the order of saving. */
  lemma BookmarkedInCatalogOrder(materials: seq<Material>, stored: Stored<string>)
    ensures IsSubseq(Bookmarked(materials, stored), materials)
  {
    if stored.Array? {
      FilterIsSubseq(materials, (m: Material) => m.id in stored.items);
    }
  }

  // ----------------------------------------------------------------------
  // Recently viewed

  /** `m` is the first entry of `materials` carrying its id: what `find` by id returns. */
  predicate FirstWithId(materials: seq<Material>, m: Material)
  {
    exists k :: 0 <= k < |materials| && materials[k] == m && forall j :: 0 <= j < k ==> materials[j].id != m.id
  }

  /** `ids.map((id) => materials.find((m) => m.id === id)).filter(Boolean)`:
      each id's first material, ids without one dropped. */
  function Resolve(ids: seq<string>, materials: seq<Material>): (r: seq<Material>)
    ensures |r| <= |ids|
    ensures forall i :: 0 <= i < |r| ==> r[i] in materials && r[i].id in ids
    ensures forall i :: 0 <= i < |r| ==> FirstWithId(materials, r[i])
  {
    if |ids| == 0 then []
    else
      match Find(materials, (m: Material) => m.id == ids[0])
      case Some(m) =>
        assert FirstWithId(materials, m);
        [m] + Resolve(ids[1..], materials)
      case None => Resolve(ids[1..], materials)
  }

  /** When every id has a material, each position resolves in place. */
  lemma {:induction false} ResolveAllFound(ids: seq<string>, materials: seq<Material>)
    requires forall i :: 0 <= i < |ids| ==> exists j :: 0 <= j < |materials| && materials[j].id == ids[i]
    ensures |Resolve(ids, materials)| == |ids|
    ensures forall i :: 0 <= i < |ids| ==> Resolve(ids, materials)[i].id == ids[i]
  {
    if |ids| > 0 {
      var j :| 0 <= j < |materials| && materials[j].id == ids[0];
      var f := Find(materials, (m: Material) => m.id == ids[0]);
      assert f.Some?;
      ResolveAllFound(ids[1..], materials);
      var r := Resolve(ids, materials);
      assert r == [f.value] + Resolve(ids[1..], materials);
      forall i | 0 <= i < |ids| ensures r[i].id == ids[i] {
        if i > 0 {
          assert r[i] == Resolve(ids[1..], materials)[i - 1];
        }
      }
    }
  }

  /** An id with no material contributes nothing: resolving is the same with it removed. */
  lemma {:induction false} ResolveSkipsDangling(ids: seq<string>, materials: seq<Material>, x: string)
    requires forall j :: 0 <= j < |materials| ==> materials[j].id != x
    ensures Resolve(ids, materials) == Resolve(RemoveAll(ids, x), materials)
  {
    if |ids| > 0 {
      ResolveSkipsDangling(ids[1..], materials, x);
      if ids[0] == x {
        assert Find(materials, (m: Material) => m.id == ids[0]).None?;
        assert RemoveAll(ids, x) == RemoveAll(ids[1..], x);
      } else {
        var t := RemoveAll(ids, x);
        assert t == [ids[0]] + RemoveAll(ids[1..], x);
        assert t[0] == ids[0] && t[1..] == RemoveAll(ids[1..], x);
      }
    }
  }

  /** How many recent materials the dashboard shows. */
  const RecentCount: nat := 5

  /** `recentMaterials`: the last five stored ids, latest first, resolved. */
  function Recent(materials: seq<Material>, viewed: Stored<string>): (r: seq<Material>)
    ensures |r| <= RecentCount
    ensures !viewed.Array? ==> r == []
    ensures forall i :: 0 <= i < |r| ==> r[i] in materials && viewed.Array? && r[i].id in viewed.items
    ensures viewed.Array? ==> forall i :: 0 <= i < |r| ==> r[i].id in LastN(viewed.items, RecentCount)
  {
    if viewed.Array? then
      LastNReversedMembers(viewed.items, RecentCount);
      Resolve(Reverse(LastN(viewed.items, RecentCount)), materials)
    else []
  }

  /** The reversed last `n` entries are entries of the last `n`, and so of the list. */
  lemma LastNReversedMembers<T>(s: seq<T>, n: nat)
    ensures forall y :: y in Reverse(LastN(s, n)) ==> y in LastN(s, n) && y in s
  {
    forall y | y in Reverse(LastN(s, n)) ensures y in LastN(s, n) && y in s {
      var k :| 0 <= k < |Reverse(LastN(s, n))| && Reverse(LastN(s, n))[k] == y;
      LastNReversedAt(s, n, k);
    }
  }

  /** Reversing the last `n` entries reads the list from its end. */
  lemma LastNReversedAt<T>(s: seq<T>, n: nat, i: nat)
    requires i < |LastN(s, n)|
    ensures |Reverse(LastN(s, n))| == |LastN(s, n)| <= |s|
    ensures Reverse(LastN(s, n))[i] == s[|s| - 1 - i]
    ensures Reverse(LastN(s, n))[i] in LastN(s, n) && Reverse(LastN(s, n))[i] in s
  {
    var last := LastN(s, n);
    var j := |last| - 1 - i;
    var y := Reverse(last)[i];
    assert y == last[j] && y == s[|s| - 1 - i] by {
      assert last[j] == s[|s| - |last| + j];
    }
    assert y in last by {
      assert last[j] in last;
    }
    assert y in s by {
      assert s[|s| - 1 - i] in s;
    }
  }

  /** When each of the last five viewed ids names a material, the list holds
      one material per id, newest first: position `i` is the id viewed `i`
      visits before the latest. */
  lemma RecentAllFound(materials: seq<Material>, viewed: seq<string>)
    requires forall i :: 0 <= i < |viewed| && |viewed| - RecentCount <= i ==>
      exists j :: 0 <= j < |materials| && materials[j].id == viewed[i]
    ensures |Recent(materials, Array(viewed))| == |LastN(viewed, RecentCount)|
    ensures var r := Recent(materials, Array(viewed));
      forall i :: 0 <= i < |r| ==> r[i].id == viewed[|viewed| - 1 - i]
  {
    var ids := Reverse(LastN(viewed, RecentCount));
    forall i | 0 <= i < |ids| ensures exists j :: 0 <= j < |materials| && materials[j].id == ids[i] {
      LastNReversedAt(viewed, RecentCount, i);
      var j :| 0 <= j < |materials| && materials[j].id == viewed[|viewed| - 1 - i];
    }
    ResolveAllFound(ids, materials);
    var r := Recent(materials, Array(viewed));
    assert r == Resolve(ids, materials);
    forall i | 0 <= i < |r| ensures r[i].id == viewed[|viewed| - 1 - i] {
      LastNReversedAt(viewed, RecentCount, i);
    }
  }

  /** The most recently viewed id, when it names a material, heads the list. */
  lemma LatestFirst(materials: seq<Material>, viewed: seq<string>)
    requires |viewed| > 0
    requires exists j :: 0 <= j < |materials| && materials[j].id == viewed[|viewed| - 1]
    ensures var r := Recent(materials, Array(viewed));
      |r| > 0 && r[0] == Find(materials, (m: Material) => m.id == viewed[|viewed| - 1]).value
  {
    var ids := Reverse(LastN(viewed, RecentCount));
    assert ids[0] == viewed[|viewed| - 1];
  }

  // ----------------------------------------------------------------------
  // Category filter and search

  /** The plan filter: "premium", "free", or anything else for all. */
  predicate PlanAdmits(plan: string, cat: Category)
  {
    if plan == "premium" then cat.isPremium
    else if plan == "free" then !cat.isPremium
    else true
  }

  /** The category search, lower-casing both sides; the query is not trimmed. */
  predicate SearchAdmits(search: string, cat: Category)
  {
    Includes(Lower(cat.title), Lower(search)) || Includes(Lower(OrEmpty(cat.description)), Lower(search))
  }

  /** `filteredCategories`. */
  function FilteredCategories(all: seq<Category>, plan: string, search: string): (r: seq<Category>)
    ensures forall i :: 0 <= i < |r| ==> r[i] in all && PlanAdmits(plan, r[i]) && SearchAdmits(search, r[i])
    ensures forall i :: 0 <= i < |all| && PlanAdmits(plan, all[i]) && SearchAdmits(search, all[i]) ==> all[i] in r
    ensures IsSubseq(r, all)
  {
    var byPlan := Filter(all, (c: Category) => PlanAdmits(plan, c));
    var r := Filter(byPlan, (c: Category) => SearchAdmits(search, c));
    assert IsSubseq(r, all) by {
      FilterTwiceIsSubseq(all, (c: Category) => PlanAdmits(plan, c), (c: Category) => SearchAdmits(search, c));
    }
    assert forall i :: 0 <= i < |all| && PlanAdmits(plan, all[i]) ==> all[i] in byPlan;
    assert forall c :: c in byPlan && SearchAdmits(search, c) ==> c in r by {
      forall c | c in byPlan && SearchAdmits(search, c) ensures c in r {
        FilterMembership(byPlan, (c: Category) => SearchAdmits(search, c), c);
      }
    }
    r
  }

  /** With an empty search only the plan filter takes effect. */
  lemma EmptySearchIsPlanFilter(all: seq<Category>, plan: string)
    ensures FilteredCategories(all, plan, "") == Filter(all, (c: Category) => PlanAdmits(plan, c))
  {
    var byPlan := Filter(all, (c: Category) => PlanAdmits(plan, c));
    forall i | 0 <= i < |byPlan| ensures SearchAdmits("", byPlan[i]) {
      IncludesEmpty(Lower(byPlan[i].title));
    }
    FilterAll(byPlan, (c: Category) => SearchAdmits("", c));
  }

  /** With an empty search the "all" plan lists every merged category, and
      "premium" and "free" split the merged categories between them. */
  lemma EmptySearchKeepsPlan(all: seq<Category>)
    ensures FilteredCategories(all, "all", "") == all
    ensures |FilteredCategories(all, "premium", "")| + |FilteredCategories(all, "free", "")| == |all|
  {
    EmptySearchIsPlanFilter(all, "all");
    EmptySearchIsPlanFilter(all, "premium");
    EmptySearchIsPlanFilter(all, "free");
    FilterAll(all, (c: Category) => PlanAdmits("all", c));
    FilterComplementLength(all, (c: Category) => PlanAdmits("premium", c), (c: Category) => PlanAdmits("free", c));
  }

  /** The search ignores letter case. */
  lemma CategorySearchIgnoresCase(all: seq<Category>, plan: string, s1: string, s2: string)
    requires Lower(s1) == Lower(s2)
    ensures FilteredCategories(all, plan, s1) == FilteredCategories(all, plan, s2)
  {
    var byPlan := Filter(all, (c: Category) => PlanAdmits(plan, c));
    FilterCongruent(byPlan, (c: Category) => SearchAdmits(s1, c), (c: Category) => SearchAdmits(s2, c));
  }

  // ----------------------------------------------------------------------
  // Subject quick search

  /** `subjectMatches`: nothing for a blank search, otherwise the subjects
      whose lower-cased name contains the lower-cased (untrimmed) search. */
  function SubjectMatches(all: seq<Subject>, search: string): (r: seq<Subject>)
    ensures AllSpace(search) ==> r == []
    ensures forall i :: 0 <= i < |r| ==> r[i] in all && Includes(Lower(r[i].name), Lower(search))
    ensures !AllSpace(search) ==>
      forall i :: 0 <= i < |all| && Includes(Lower(all[i].name), Lower(search)) ==> all[i] in r
    ensures IsSubseq(r, all)
  {
    TrimEmptyIffAllSpace(search);
    FilterIsSubseq(all, (s: Subject) => Includes(Lower(s.name), Lower(search)));
    if |Trim(search)| > 0 then Filter(all, (s: Subject) => Includes(Lower(s.name), Lower(search)))
    else []
  }

  /** The subject search ignores letter case: searches equal once lower-cased
      match the same subjects, in the same order. */
  lemma SubjectSearchIgnoresCase(all: seq<Subject>, s1: string, s2: string)
    requires Lower(s1) == Lower(s2)
    ensures SubjectMatches(all, s1) == SubjectMatches(all, s2)
  {
    LowerKeepsSpace(s1);
    LowerKeepsSpace(s2);
    FilterCongruent(all, (s: Subject) => Includes(Lower(s.name), Lower(s1)),
                         (s: Subject) => Includes(Lower(s.name), Lower(s2)));
  }

  /** Adding subjects to the list never drops an earlier match: the matches
      over `a + b` are those over `a` followed by those over `b`. */
  lemma SubjectMatchesAppend(a: seq<Subject>, b: seq<Subject>, search: string)
    ensures SubjectMatches(a + b, search) == SubjectMatches(a, search) + SubjectMatches(b, search)
  {
    FilterAppend(a, b, (s: Subject) => Includes(Lower(s.name), Lower(search)));
  }

  // ----------------------------------------------------------------------
  // Quick open

  /** The category every quick-opened subject is shown under. */
  const DefaultCategoryId: string := "notes"

  /** `handleSubjectQuickOpen`: the subject page under the "notes" category,
      whatever category the subject belongs to. */
  function QuickOpenPath(subject: Subject): (path: string)
    ensures path == Browse.SubjectPath(DefaultCategoryId, subject.semesterId, subject.id)
  {
    assert "/category/" + DefaultCategoryId + "/semester/" + subject.semesterId ==
           Browse.SemesterPath(DefaultCategoryId, subject.semesterId);
    "/category/" + DefaultCategoryId + "/semester/" + subject.semesterId + "/subject/" + subject.id
  }

  /** The route the path leads to carries the subject's semester and id. */
  lemma QuickOpenRoundTrip(subject: Subject)
    requires '/' !in subject.semesterId && '/' !in subject.id
    ensures SplitPath(QuickOpenPath(subject)) ==
            ["category", "notes", "semester", subject.semesterId, "subject", subject.id]
  {
    Browse.RouteParamsRoundTrip(DefaultCategoryId, subject.semesterId, subject.id, "");
  }
}

=== FILE: merge.dfy ===
/** `useMergedData`: each shipped list followed by the admin list stored under
    its own key. Unlike the admin screen's loader, the hook has no
    `Array.isArray` check: after `JSON.parse(getItem(k) || "[]") || []` the
    value is spread straight into an array literal. */
module Merge {

  import opened Seqs
  import opened Storage
  import opened Catalog

  /** What one key contributes when spread after the shipped list. */
  datatype Spread<T> =
    | Items(items: seq<T>)    // an array (or `[]` from a fallback)
    | Characters(text: string) // a non-empty JSON string spreads into its characters
    | NotIterable              // `true`, a number or an object: the spread throws a TypeError

  /** `try { JSON.parse(getItem(k) || "[]") || [] } catch { [] }`, then spread. */
  function AdminPart<T>(v: Stored<T>): (r: Spread<T>)
    ensures r.Items? <==> !v.Text? && !v.Truthy?
    ensures r.Items? ==> r.items == ArrayOrEmpty(v)
    ensures r.Characters? <==> v.Text?
  {
    match v
    case Missing => Items([])
    case Invalid => Items([])
    case Null => Items([])
    case Falsy => Items([])
    case Array(xs) => Items(xs)
    case Text(s) => Characters(s)
    case Truthy => NotIterable
  }

  /** One merged list: `[...base, ...admin]`. */
  datatype Merged<T> = Ok(list: seq<T>) | WithCharacters(base: seq<T>, text: string) | Throws

  function MergeKey<T>(base: seq<T>, v: Stored<T>): (r: Merged<T>)
    ensures r.Ok? <==> AdminPart(v).Items?
    ensures r.Ok? ==> r.list == base + ArrayOrEmpty(v)
    ensures r.Throws? <==> v.Truthy?
  {
    match AdminPart(v)
    case Items(xs) => Ok(base + xs)
    case Characters(s) => WithCharacters(base, s)
    case NotIterable => Throws
  }

  /** What the hook gives its caller. */
  datatype Hook =
    | Merged(lists: Lists)   // four well-formed merged lists
    | CharacterEntries       // some list holds single characters where records belong
    | HookThrows             // the render throws a TypeError

  /** The hook over the four stored admin keys. */
  function UseMergedData(base: Lists, cats: Stored<Category>, sems: Stored<Semester>,
                         subs: Stored<Subject>, mats: Stored<Material>): (r: Hook)
    ensures r.HookThrows? <==> cats.Truthy? || sems.Truthy? || subs.Truthy? || mats.Truthy?
    ensures r.Merged? <==>
      MergeKey(base.categories, cats).Ok? && MergeKey(base.semesters, sems).Ok? &&
      MergeKey(base.subjects, subs).Ok? && MergeKey(base.materials, mats).Ok?
    ensures r.Merged? ==>
      && r.lists.categories == base.categories + ArrayOrEmpty(cats)
      && r.lists.semesters == base.semesters + ArrayOrEmpty(sems)
      && r.lists.subjects == base.subjects + ArrayOrEmpty(subs)
      && r.lists.materials == base.materials + ArrayOrEmpty(mats)
  {
    var c := MergeKey(base.categories, cats);
    var s := MergeKey(base.semesters, sems);
    var u := MergeKey(base.subjects, subs);
    var m := MergeKey(base.materials, mats);
    if c.Throws? || s.Throws? || u.Throws? || m.Throws? then HookThrows
    else if c.Ok? && s.Ok? && u.Ok? && m.Ok? then Merged(Lists(c.list, s.list, u.list, m.list))
    else CharacterEntries
  }

  /** Every merged list starts with the whole shipped list and is as long as both parts together. */
  lemma MergedShape<T>(base: seq<T>, v: Stored<T>)
    requires MergeKey(base, v).Ok?
    ensures |MergeKey(base, v).list| == |base| + |ArrayOrEmpty(v)|
    ensures MergeKey(base, v).list[..|base|] == base
    ensures MergeKey(base, v).list[|base|..] == ArrayOrEmpty(v)
  {
  }

  /** A missing key, stored JSON `null`, a falsy JSON value or unparsable text
      all leave the shipped list alone. */
  lemma FallbacksGiveShippedList<T>(base: seq<T>, v: Stored<T>)
    requires v.Missing? || v.Null? || v.Invalid? || v.Falsy?
    ensures MergeKey(base, v) == Ok(base)
  {
  }

  /** Unparsable text under one key empties that key's admin list only. */
  lemma InvalidKeyIsLocal(base: Lists, cats: Stored<Category>, sems: Stored<Semester>,
                          subs: Stored<Subject>, mats: Stored<Material>)
    requires UseMergedData(base, cats, sems, subs, mats).Merged?
    ensures UseMergedData(base, Invalid, sems, subs, mats).Merged?
    ensures UseMergedData(base, Invalid, sems, subs, mats).lists ==
            UseMergedData(base, cats, sems, subs, mats).lists.(categories := base.categories)
  {
  }

  /** Where the hook and the admin screen's loader part ways: a stored object
      is an empty list to the loader but makes the hook throw, and a stored
      string is an empty list to the loader but characters to the hook. */
  lemma HookLacksArrayCheck<T>(base: seq<T>, s: string)
    requires s != ""
    ensures ArrayOrEmpty<T>(Truthy) == [] && MergeKey(base, Truthy).Throws?
    ensures ArrayOrEmpty<T>(Text(s)) == [] && MergeKey(base, Text(s)).WithCharacters?
  {
  }
}

=== FILE: overlay.dfy ===
/** The admin screen's overlay store: four lists of admin-created records kept
    under their own storage keys, edited by add forms and confirmed deletes.
    The shipped lists are never part of this state, so no operation here can
    change them. */
module Overlay {

  import opened Seqs
  import opened Text
  import opened Storage
  import opened Catalog
  import Merge
  import Search

  datatype Overlay = Overlay(
    categories: seq<Category>,
    semesters: seq<Semester>,
    subjects: seq<Subject>,
    materials: seq<Material>)

  const Empty: Overlay := Overlay([], [], [], [])

  // ----------------------------------------------------------------------
  // Loading and saving

  /** The mount effect: parse the four keys in one `try`; keep each parsed
      value that is an array; a parse failure under any key empties all four. */
  function Load(cats: Stored<Category>, sems: Stored<Semester>,
                subs: Stored<Subject>, mats: Stored<Material>): (o: Overlay)
    ensures cats.Invalid? || sems.Invalid? || subs.Invalid? || mats.Invalid? ==> o == Empty
    ensures !cats.Invalid? && !sems.Invalid? && !subs.Invalid? && !mats.Invalid? ==>
      && (cats.Array? ==> o.categories == cats.items) && (!cats.Array? ==> o.categories == [])
      && (sems.Array? ==> o.semesters == sems.items) && (!sems.Array? ==> o.semesters == [])
      && (subs.Array? ==> o.subjects == subs.items) && (!subs.Array? ==> o.subjects == [])
      && (mats.Array? ==> o.materials == mats.items) && (!mats.Array? ==> o.materials == [])
  {
    if cats.Invalid? || sems.Invalid? || subs.Invalid? || mats.Invalid? then Empty
    else Overlay(ArrayOrEmpty(cats), ArrayOrEmpty(sems), ArrayOrEmpty(subs), ArrayOrEmpty(mats))
  }

  /** The save effects write each list with `JSON.stringify`; loading what was
      saved gives the overlay back. */
  lemma LoadSaved(o: Overlay)
    ensures Load(Saved(o.categories), Saved(o.semesters), Saved(o.subjects), Saved(o.materials)) == o
  {
  }

  // ----------------------------------------------------------------------
  // Identifiers

  /** `"admin_" + kind + "_" + Date.now().toString()`; the clock reading is a parameter. */
  function NewId(kind: string, now: nat): (id: string)
    ensures ("admin_" + kind + "_") <= id
    ensures id[|kind| + 7..] == Decimal(now)
  {
    "admin_" + kind + "_" + Decimal(now)
  }

  /** Ids of the same kind differ exactly when the clock readings differ:
      two additions in the same millisecond collide. */
  lemma NewIdCollidesIffSameMillisecond(kind: string, t1: nat, t2: nat)
    ensures NewId(kind, t1) == NewId(kind, t2) <==> t1 == t2
  {
    if NewId(kind, t1) == NewId(kind, t2) {
      assert Decimal(t1) == NewId(kind, t1)[|kind| + 7..];
      DecimalInjective(t1, t2);
    }
  }

  // ----------------------------------------------------------------------
  // Category, semester and subject forms

  datatype CategoryForm = CategoryForm(title: string, description: string, premium: bool)
  datatype SemesterForm = SemesterForm(name: string, categoryId: string)
  datatype SubjectForm = SubjectForm(name: string, semesterId: string)

  const DefaultCategoryDescription: string := "Admin added category"

  /** `handleAddCategory`. A blank title changes nothing; otherwise one category
      is appended and the form is cleared. */
  function AddCategory(o: Overlay, f: CategoryForm, now: nat): (r: (Overlay, CategoryForm))
    ensures Trim(f.title) == "" ==> r == (o, f)
    ensures Trim(f.title) != "" ==>
      && |r.0.categories| == |o.categories| + 1
      && r.0.categories[..|o.categories|] == o.categories
      && r.0.semesters == o.semesters && r.0.subjects == o.subjects && r.0.materials == o.materials
      && r.1 == CategoryForm("", "", false)
    ensures Trim(f.title) != "" ==>
      var c := r.0.categories[|o.categories|];
      && c.id == NewId("cat", now)
      && c.title == Trim(f.title)
      && c.description == Some(if Trim(f.description) != "" then Trim(f.description) else DefaultCategoryDescription)
      && c.isPremium == f.premium
      && c.isCustom
  {
    var title := Trim(f.title);
    if title == "" then (o, f)
    else
      var desc := Trim(f.description);
      var c := Category(NewId("cat", now), title, Some(if desc != "" then desc else DefaultCategoryDescription), f.premium, true);
      (o.(categories := o.categories + [c]), CategoryForm("", "", false))
  }

  /** `handleAddSemester`. An empty category selection is stored as null. */
  function AddSemester(o: Overlay, f: SemesterForm, now: nat): (r: (Overlay, SemesterForm))
    ensures Trim(f.name) == "" ==> r == (o, f)
    ensures Trim(f.name) != "" ==>
      && |r.0.semesters| == |o.semesters| + 1
      && r.0.semesters[..|o.semesters|] == o.semesters
      && r.0.categories == o.categories && r.0.subjects == o.subjects && r.0.materials == o.materials
      && r.1 == f.(name := "")
    ensures Trim(f.name) != "" ==>
      var s := r.0.semesters[|o.semesters|];
      && s.id == NewId("sem", now)
      && s.name == Trim(f.name)
      && (f.categoryId == "" ==> s.categoryId == None)
      && (f.categoryId != "" ==> s.categoryId == Some(f.categoryId))
      && s.isCustom
  {
    var name := Trim(f.name);
    if name == "" then (o, f)
    else
      var s := Semester(NewId("sem", now), name, if f.categoryId != "" then Some(f.categoryId) else None, true);
      (o.(semesters := o.semesters + [s]), f.(name := ""))
  }

  /** `handleAddSubject`. The new subject records its semester and no category. */
  function AddSubject(o: Overlay, f: SubjectForm, now: nat): (r: (Overlay, SubjectForm))
    ensures Trim(f.name) == "" ==> r == (o, f)
    ensures Trim(f.name) != "" ==>
      && |r.0.subjects| == |o.subjects| + 1
      && r.0.subjects[..|o.subjects|] == o.subjects
      && r.0.categories == o.categories && r.0.semesters == o.semesters && r.0.materials == o.materials
      && r.1 == f.(name := "")
    ensures Trim(f.name) != "" ==>
      var s := r.0.subjects[|o.subjects|];
      && s.id == NewId("sub", now)
      && s.name == Trim(f.name)
      && s.semesterId == f.semesterId
      && s.categoryId == None
      && s.isCustom
  {
    var name := Trim(f.name);
    if name == "" then (o, f)
    else
      var s := Subject(NewId("sub", now), name, f.semesterId, None, true);
      (o.(subjects := o.subjects + [s]), f.(name := ""))
  }

  /** Two categories added in the same millisecond share an id. */
  lemma SameMillisecondCategoriesCollide(o: Overlay, f: CategoryForm, g: CategoryForm, now: nat)
    requires Trim(f.title) != "" && Trim(g.title) != ""
    ensures var o1 := AddCategory(o, f, now).0;
            var o2 := AddCategory(o1, g, now).0;
            |o2.categories| == |o.categories| + 2 &&
            o2.categories[|o.categories|].id == o2.categories[|o.categories| + 1].id
  {
    var o1 := AddCategory(o, f, now).0;
    var o2 := AddCategory(o1, g, now).0;
    assert o2.categories[..|o1.categories|] == o1.categories;
    assert o2.categories[|o.categories|] == o1.categories[|o.categories|];
  }

  // ----------------------------------------------------------------------
  // Deletes

  /** `handleDeleteCategory`: the category, and the admin semesters, subjects
      and materials whose own `categoryId` is that id. One level only. */
  function DeleteCategory(o: Overlay, id: string, confirmed: bool): (r: Overlay)
    ensures !confirmed ==> r == o
    ensures confirmed ==>
      && (forall c :: c in r.categories <==> c in o.categories && c.id != id)
      && (forall s :: s in r.semesters <==> s in o.semesters && s.categoryId != Some(id))
      && (forall s :: s in r.subjects <==> s in o.subjects && s.categoryId != Some(id))
      && (forall m :: m in r.materials <==> m in o.materials && m.categoryId != id)
  {
    if !confirmed then o
    else Overlay(
      Filter(o.categories, (c: Category) => c.id != id),
      Filter(o.semesters, (s: Semester) => s.categoryId != Some(id)),
      Filter(o.subjects, (s: Subject) => s.categoryId != Some(id)),
      Filter(o.materials, (m: Material) => m.categoryId != id))
  }

  /** `handleDeleteSemester`: the semester and the admin subjects and materials filed under it. */
  function DeleteSemester(o: Overlay, id: string, confirmed: bool): (r: Overlay)
    ensures !confirmed ==> r == o
    ensures confirmed ==>
      && r.categories == o.categories
      && (forall s :: s in r.semesters <==> s in o.semesters && s.id != id)
      && (forall s :: s in r.subjects <==> s in o.subjects && s.semesterId != id)
      && (forall m :: m in r.materials <==> m in o.materials && m.semesterId != id)
  {
    if !confirmed then o
    else Overlay(
      o.categories,
      Filter(o.semesters, (s: Semester) => s.id != id),
      Filter(o.subjects, (s: Subject) => s.semesterId != id),
      Filter(o.materials, (m: Material) => m.semesterId != id))
  }

  /** `handleDeleteSubject`: the subject and the admin materials filed under it. */
  function DeleteSubject(o: Overlay, id: string, confirmed: bool): (r: Overlay)
    ensures !confirmed ==> r == o
    ensures confirmed ==>
      && r.categories == o.categories && r.semesters == o.semesters
      && (forall s :: s in r.subjects <==> s in o.subjects && s.id != id)
      && (forall m :: m in r.materials <==> m in o.materials && m.subjectId != id)
  {
    if !confirmed then o
    else o.(subjects := Filter(o.subjects, (s: Subject) => s.id != id),
            materials := Filter(o.materials, (m: Material) => m.subjectId != id))
  }

  /** `handleDeleteMaterial`: that material only. */
  function DeleteMaterial(o: Overlay, id: string, confirmed: bool): (r: Overlay)
    ensures !confirmed ==> r == o
    ensures confirmed ==>
      && r.categories == o.categories && r.semesters == o.semesters && r.subjects == o.subjects
      && (forall m :: m in r.materials <==> m in o.materials && m.id != id)
  {
    if !confirmed then o
    else o.(materials := Filter(o.materials, (m: Material) => m.id != id))
  }

  /** Every delete keeps the survivors of each list in their original order. */
  lemma DeletesPreserveOrder(o: Overlay, id: string)
    ensures var r := DeleteCategory(o, id, true);
      IsSubseq(r.categories, o.categories) && IsSubseq(r.semesters, o.semesters) &&
      IsSubseq(r.subjects, o.subjects) && IsSubseq(r.materials, o.materials)
    ensures var r := DeleteSemester(o, id, true);
      IsSubseq(r.semesters, o.semesters) && IsSubseq(r.subjects, o.subjects) && IsSubseq(r.materials, o.materials)
    ensures var r := DeleteSubject(o, id, true);
      IsSubseq(r.subjects, o.subjects) && IsSubseq(r.materials, o.materials)
    ensures IsSubseq(DeleteMaterial(o, id, true).materials, o.materials)
  {
    FilterIsSubseq(o.categories, (c: Category) => c.id != id);
    FilterIsSubseq(o.semesters, (s: Semester) => s.categoryId != Some(id));
    FilterIsSubseq(o.subjects, (s: Subject) => s.categoryId != Some(id));
    FilterIsSubseq(o.materials, (m: Material) => m.categoryId != id);
    FilterIsSubseq(o.semesters, (s: Semester) => s.id != id);
    FilterIsSubseq(o.subjects, (s: Subject) => s.semesterId != id);
    FilterIsSubseq(o.materials, (m: Material) => m.semesterId != id);
    FilterIsSubseq(o.subjects, (s: Subject) => s.id != id);
    FilterIsSubseq(o.materials, (m: Material) => m.subjectId != id);
    FilterIsSubseq(o.materials, (m: Material) => m.id != id);
  }

  /** Deleting a category keeps each survivor of each list as many times as it
      was there and drops every copy of what it removes; likewise below. */
  lemma DeleteCategoryCounts(o: Overlay, id: string)
    ensures var r := DeleteCategory(o, id, true);
      && (forall c :: multiset(r.categories)[c] == if c.id != id then multiset(o.categories)[c] else 0)
      && (forall s :: multiset(r.semesters)[s] == if s.categoryId != Some(id) then multiset(o.semesters)[s] else 0)
      && (forall s :: multiset(r.subjects)[s] == if s.categoryId != Some(id) then multiset(o.subjects)[s] else 0)
      && (forall m :: multiset(r.materials)[m] == if m.categoryId != id then multiset(o.materials)[m] else 0)
  {
    FilterCounts(o.categories, (c: Category) => c.id != id);
    FilterCounts(o.semesters, (s: Semester) => s.categoryId != Some(id));
    FilterCounts(o.subjects, (s: Subject) => s.categoryId != Some(id));
    FilterCounts(o.materials, (m: Material) => m.categoryId != id);
  }

  lemma DeleteSemesterCounts(o: Overlay, id: string)
    ensures var r := DeleteSemester(o, id, true);
      && (forall s :: multiset(r.semesters)[s] == if s.id != id then multiset(o.semesters)[s] else 0)
      && (forall s :: multiset(r.subjects)[s] == if s.semesterId != id then multiset(o.subjects)[s] else 0)
      && (forall m :: multiset(r.materials)[m] == if m.semesterId != id then multiset(o.materials)[m] else 0)
  {
    FilterCounts(o.semesters, (s: Semester) => s.id != id);
    FilterCounts(o.subjects, (s: Subject) => s.semesterId != id);
    FilterCounts(o.materials, (m: Material) => m.semesterId != id);
  }

  lemma DeleteSubjectCounts(o: Overlay, id: string)
    ensures var r := DeleteSubject(o, id, true);
      && (forall s :: multiset(r.subjects)[s] == if s.id != id then multiset(o.subjects)[s] else 0)
      && (forall m :: multiset(r.materials)[m] == if m.subjectId != id then multiset(o.materials)[m] else 0)
  {
    FilterCounts(o.subjects, (s: Subject) => s.id != id);
    FilterCounts(o.materials, (m: Material) => m.subjectId != id);
  }

  lemma DeleteMaterialCounts(o: Overlay, id: string)
    ensures forall m :: multiset(DeleteMaterial(o, id, true).materials)[m] == if m.id != id then multiset(o.materials)[m] else 0
  {
    FilterCounts(o.materials, (m: Material) => m.id != id);
  }

  /** Subjects made by the add form carry no category, so deleting a category
      leaves the admin subjects exactly as they were. */
  lemma DeleteCategoryKeepsFormSubjects(o: Overlay, id: string)
    requires forall i :: 0 <= i < |o.subjects| ==> o.subjects[i].categoryId.None?
    ensures DeleteCategory(o, id, true).subjects == o.subjects
  {
    FilterAll(o.subjects, (s: Subject) => s.categoryId != Some(id));
  }

  /** The cascade is not transitive: a subject filed under a semester of the
      deleted category survives, under a semester that no longer exists. */
  lemma CascadeIsOneLevel(o: Overlay, categoryId: string, sem: Semester, sub: Subject)
    requires o.semesters == [sem] && sem.categoryId == Some(categoryId)
    requires o.subjects == [sub] && sub.semesterId == sem.id && sub.categoryId.None?
    ensures DeleteCategory(o, categoryId, true).semesters == []
    ensures DeleteCategory(o, categoryId, true).subjects == [sub]
  {
    DeleteCategoryKeepsFormSubjects(o, categoryId);
    var r := DeleteCategory(o, categoryId, true);
    assert r.semesters == Filter([sem], (s: Semester) => s.categoryId != Some(categoryId));
  }

  // ----------------------------------------------------------------------
  // Material form

  datatype MaterialForm = MaterialForm(
    title: string,
    pdfUrl: string,
    file: Option<string>,   // the chosen file, by name
    categoryId: string,
    semesterId: string,
    subjectId: string,
    year: string,
    isPremium: bool,
    error: string)

  /** The form as the screen first shows it. */
  const InitialMaterialForm: MaterialForm :=
    MaterialForm("", "", None, "notes", "sem1", "c-programming", "", false, "")

  const TitleMissing: string := "Please enter a title"
  const SourceMissing: string := "Please select a PDF file or provide PDF URL"

  /** `resetMaterialForm`: clears the entry fields and keeps the three selections. */
  function ResetMaterialForm(f: MaterialForm): (r: MaterialForm)
    ensures r.categoryId == f.categoryId && r.semesterId == f.semesterId && r.subjectId == f.subjectId
    ensures r.title == "" && r.pdfUrl == "" && r.file.None? && r.year == "" && !r.isPremium && r.error == ""
  {
    f.(title := "", pdfUrl := "", file := None, year := "", isPremium := false, error := "")
  }

  /** Submitting the form untouched only shows the title error, and a reset
      after a submission with the first-shown selections gives the first-shown
      form back. */
  lemma InitialFormRejected(o: Overlay, f: MaterialForm, now: nat)
    requires f.categoryId == "notes" && f.semesterId == "sem1" && f.subjectId == "c-programming"
    ensures AddMaterial(o, InitialMaterialForm, now) ==
      MaterialSubmit(o, InitialMaterialForm.(error := TitleMissing), None)
    ensures ResetMaterialForm(f) == InitialMaterialForm
  {
    assert Trim(InitialMaterialForm.title) == "";
  }

  /** The values a file submission captured, waiting for the file to be encoded. */
  datatype PendingUpload = PendingUpload(
    title: string, fileName: string, categoryId: string, semesterId: string,
    subjectId: string, year: string, isPremium: bool)

  datatype MaterialSubmit = MaterialSubmit(overlay: Overlay, form: MaterialForm, pending: Option<PendingUpload>)

  /** `handleAddMaterial`: two validations, then either a URL material appended
      at once or a file read started. */
  function AddMaterial(o: Overlay, f: MaterialForm, now: nat): (r: MaterialSubmit)
    ensures r.overlay.categories == o.categories && r.overlay.semesters == o.semesters
    ensures r.overlay.subjects == o.subjects
    ensures Trim(f.title) == "" ==> r == MaterialSubmit(o, f.(error := TitleMissing), None)
    ensures Trim(f.title) != "" && f.pdfUrl == "" && f.file.None? ==>
      r == MaterialSubmit(o, f.(error := SourceMissing), None)
    ensures Trim(f.title) != "" && f.file.Some? ==>
      && r.overlay == o && r.form == f
      && r.pending == Some(PendingUpload(f.title, f.file.value, f.categoryId, f.semesterId,
                                         f.subjectId, f.year, f.isPremium))
    ensures Trim(f.title) != "" && f.pdfUrl != "" && f.file.None? ==>
      && r.pending.None?
      && r.form == ResetMaterialForm(f)
      && |r.overlay.materials| == |o.materials| + 1
      && r.overlay.materials[..|o.materials|] == o.materials
      && var m := r.overlay.materials[|o.materials|];
         && m.id == NewId("mat", now) && m.title == Trim(f.title)
         && m.pdfUrl == Trim(f.pdfUrl) && m.fileName.None?
         && m.categoryId == f.categoryId && m.semesterId == f.semesterId && m.subjectId == f.subjectId
         && m.year == Some(f.year) && m.isPremium == f.isPremium
         && m.createdAt == Some(now) && m.isCustom
  {
    if Trim(f.title) == "" then MaterialSubmit(o, f.(error := TitleMissing), None)
    else if f.pdfUrl == "" && f.file.None? then MaterialSubmit(o, f.(error := SourceMissing), None)
    else if f.file.Some? then
      MaterialSubmit(o, f, Some(PendingUpload(f.title, f.file.value, f.categoryId, f.semesterId,
                                              f.subjectId, f.year, f.isPremium)))
    else
      var m := Material(NewId("mat", now), Trim(f.title), Trim(f.pdfUrl), None, f.categoryId,
                        f.semesterId, f.subjectId, Some(f.year), f.isPremium, Some(now), true);
      MaterialSubmit(o.(materials := o.materials + [m]), ResetMaterialForm(f), None)
  }

  /** The file reader's completion: append the material with the encoded data
      URL, then reset whatever the form holds by then. */
  function FinishUpload(o: Overlay, current: MaterialForm, p: PendingUpload, dataUrl: string, now: nat): (r: (Overlay, MaterialForm))
    ensures r.1 == ResetMaterialForm(current)
    ensures r.0.categories == o.categories && r.0.semesters == o.semesters && r.0.subjects == o.subjects
    ensures |r.0.materials| == |o.materials| + 1 && r.0.materials[..|o.materials|] == o.materials
    ensures var m := r.0.materials[|o.materials|];
      && m.id == NewId("mat", now) && m.title == Trim(p.title)
      && m.pdfUrl == dataUrl && m.fileName == Some(p.fileName)
      && m.categoryId == p.categoryId && m.semesterId == p.semesterId && m.subjectId == p.subjectId
      && m.year == Some(p.year) && m.isPremium == p.isPremium
      && m.createdAt == Some(now) && m.isCustom
  {
    var m := Material(NewId("mat", now), Trim(p.title), dataUrl, Some(p.fileName), p.categoryId,
                      p.semesterId, p.subjectId, Some(p.year), p.isPremium, Some(now), true);
    (o.(materials := o.materials + [m]), ResetMaterialForm(current))
  }

  /** A file submission, once its file is encoded, appends the same material a
      URL submission would, with the encoded data and the file name in place
      of the URL, even when the form has been edited in the meantime. */
  lemma SubmitFileThenFinish(o: Overlay, f: MaterialForm, current: MaterialForm, dataUrl: string,
                             submitted: nat, finished: nat)
    requires Trim(f.title) != "" && f.file.Some?
    ensures var sub := AddMaterial(o, f, submitted);
      var (o2, form2) := FinishUpload(sub.overlay, current, sub.pending.value, dataUrl, finished);
      var viaUrl := AddMaterial(o, f.(file := None, pdfUrl := "x"), finished).overlay;
      && form2 == ResetMaterialForm(current)
      && |o2.materials| == |viaUrl.materials|
      && o2.materials[..|o.materials|] == o.materials
      && o2.materials[|o.materials|] ==
         viaUrl.materials[|o.materials|].(pdfUrl := dataUrl, fileName := Some(f.file.value))
  {
  }

  /** A URL of white space only passes the check and is stored as the empty string. */
  lemma BlankUrlIsStoredEmpty(o: Overlay, f: MaterialForm, now: nat)
    requires Trim(f.title) != "" && f.file.None?
    requires f.pdfUrl != "" && AllSpace(f.pdfUrl)
    ensures |AddMaterial(o, f, now).overlay.materials| == |o.materials| + 1
    ensures AddMaterial(o, f, now).overlay.materials[|o.materials|].pdfUrl == ""
  {
    TrimEmptyIffAllSpace(f.pdfUrl);
  }

  // ----------------------------------------------------------------------
  // Enriched list and counts

  /** An admin material with the display names the list shows. */
  datatype Labelled = Labelled(material: Material, categoryName: string, semesterName: string, subjectName: string)

  /** `find(...)?.title || m.categoryId`: the title of the first category with
      the id, or the raw id when there is none or its title is empty. Later
      categories with the same id are never consulted. */
  function CategoryLabel(all: seq<Category>, id: string): (r: string)
    ensures (forall i :: 0 <= i < |all| ==> all[i].id != id) ==> r == id
    ensures forall i :: (0 <= i < |all| && all[i].id == id && all[i].title != "" &&
                         (forall j :: 0 <= j < i ==> all[j].id != id)) ==> r == all[i].title
    ensures forall i :: (0 <= i < |all| && all[i].id == id && all[i].title == "" &&
                         (forall j :: 0 <= j < i ==> all[j].id != id)) ==> r == id
  {
    match FirstIndex(all, (c: Category) => c.id == id)
    case None => id
    case Some(k) => if all[k].title != "" then all[k].title else id
  }

  /** `find(...)?.name || m.semesterId`, likewise. */
  function SemesterLabel(all: seq<Semester>, id: string): (r: string)
    ensures (forall i :: 0 <= i < |all| ==> all[i].id != id) ==> r == id
    ensures forall i :: (0 <= i < |all| && all[i].id == id && all[i].name != "" &&
                         (forall j :: 0 <= j < i ==> all[j].id != id)) ==> r == all[i].name
    ensures forall i :: (0 <= i < |all| && all[i].id == id && all[i].name == "" &&
                         (forall j :: 0 <= j < i ==> all[j].id != id)) ==> r == id
  {
    match FirstIndex(all, (s: Semester) => s.id == id)
    case None => id
    case Some(k) => if all[k].name != "" then all[k].name else id
  }

  /** `find(...)?.name || m.subjectId`, likewise. */
  function SubjectLabel(all: seq<Subject>, id: string): (r: string)
    ensures (forall i :: 0 <= i < |all| ==> all[i].id != id) ==> r == id
    ensures forall i :: (0 <= i < |all| && all[i].id == id && all[i].name != "" &&
                         (forall j :: 0 <= j < i ==> all[j].id != id)) ==> r == all[i].name
    ensures forall i :: (0 <= i < |all| && all[i].id == id && all[i].name == "" &&
                         (forall j :: 0 <= j < i ==> all[j].id != id)) ==> r == id
  {
    match FirstIndex(all, (s: Subject) => s.id == id)
    case None => id
    case Some(k) => if all[k].name != "" then all[k].name else id
  }

  /** The admin list and the search page look names up the same way: the
      admin list shows what the search page shows, or the raw id where the
      search page shows nothing. */
  lemma {:induction false} LabelsFallBackToIds(base: Lists, o: Overlay, m: Material)
    ensures var cats := base.categories + o.categories;
      var n := Search.CategoryName(cats, m.categoryId);
      CategoryLabel(cats, m.categoryId) == if n == "" then m.categoryId else n
    ensures var sems := base.semesters + o.semesters;
      var n := Search.SemesterName(sems, m.semesterId);
      SemesterLabel(sems, m.semesterId) == if n == "" then m.semesterId else n
    ensures var subs := base.subjects + o.subjects;
      var n := Search.SubjectName(subs, m.subjectId);
      SubjectLabel(subs, m.subjectId) == if n == "" then m.subjectId else n
  {
    var cats := base.categories + o.categories;
    var k1 := FirstIndex(cats, (c: Category) => c.id == m.categoryId);
    if k1.Some? {
      var i := k1.value;
      assert cats[i].id == m.categoryId && forall j :: 0 <= j < i ==> cats[j].id != m.categoryId;
    }
    var sems := base.semesters + o.semesters;
    var k2 := FirstIndex(sems, (s: Semester) => s.id == m.semesterId);
    if k2.Some? {
      var i := k2.value;
      assert sems[i].id == m.semesterId && forall j :: 0 <= j < i ==> sems[j].id != m.semesterId;
    }
    var subs := base.subjects + o.subjects;
    var k3 := FirstIndex(subs, (s: Subject) => s.id == m.subjectId);
    if k3.Some? {
      var i := k3.value;
      assert subs[i].id == m.subjectId && forall j :: 0 <= j < i ==> subs[j].id != m.subjectId;
    }
  }

  /** `enrichedCustom`: every admin material, in order, with names resolved
      against the shipped and admin lists together. */
  function EnrichedCustom(base: Lists, o: Overlay): (r: seq<Labelled>)
    ensures |r| == |o.materials|
    ensures forall i :: 0 <= i < |r| ==> r[i].material == o.materials[i]
    ensures forall i :: 0 <= i < |r| ==>
      && r[i].categoryName == CategoryLabel(base.categories + o.categories, o.materials[i].categoryId)
      && r[i].semesterName == SemesterLabel(base.semesters + o.semesters, o.materials[i].semesterId)
      && r[i].subjectName == SubjectLabel(base.subjects + o.subjects, o.materials[i].subjectId)
  {
    var cats := base.categories + o.categories;
    var sems := base.semesters + o.semesters;
    var subs := base.subjects + o.subjects;
    seq(|o.materials|, i requires 0 <= i < |o.materials| =>
      var m := o.materials[i];
      Labelled(m, CategoryLabel(cats, m.categoryId), SemesterLabel(sems, m.semesterId), SubjectLabel(subs, m.subjectId)))
  }

  /** A material whose category was deleted shows the raw category id. */
  lemma DanglingCategoryShowsRawId(base: Lists, o: Overlay, i: nat)
    requires i < |o.materials|
    requires forall c :: c in base.categories + o.categories ==> c.id != o.materials[i].categoryId
    ensures EnrichedCustom(base, o)[i].categoryName == o.materials[i].categoryId
  {
    var all := base.categories + o.categories;
    assert forall k :: 0 <= k < |all| ==> all[k] in all;
  }

  /** The four stat cards: shipped count plus admin count. */
  datatype Stats = Stats(categories: nat, semesters: nat, subjects: nat, materials: nat)

  function Counts(base: Lists, o: Overlay): (r: Stats)
    ensures r.categories == |base.categories + o.categories|
    ensures r.semesters == |base.semesters + o.semesters|
    ensures r.subjects == |base.subjects + o.subjects|
    ensures r.materials == |base.materials + o.materials|
  {
    Stats(|base.categories| + |o.categories|, |base.semesters| + |o.semesters|,
          |base.subjects| + |o.subjects|, |base.materials| + |o.materials|)
  }

  /** The counts agree with the lists the rest of the portal reads once the
      overlay has been saved. */
  lemma CountsMatchMergedLists(base: Lists, o: Overlay)
    ensures var h := Merge.UseMergedData(base, Saved(o.categories), Saved(o.semesters),
                                         Saved(o.subjects), Saved(o.materials));
      && h.Merged?
      && Counts(base, o) == Stats(|h.lists.categories|, |h.lists.semesters|,
                                  |h.lists.subjects|, |h.lists.materials|)
  {
  }
}

=== FILE: profile.dfy ===
/** The profile page: the profile kept under `bca_profile`, the count of
    viewed materials, the saved shipped materials, and the edit / save /
    delete actions. */
module Profile {

  import opened Seqs
  import opened Storage
  import opened Catalog
  import Dashboard
  import Reading

  /** The three profile fields. */
  datatype Details = Details(name: string, college: string, semester: string)

  const Blank: Details := Details("", "", "")

  /** What reading `bca_profile` and parsing it produces. A field is `Some`
      when the parsed object holds a string there, `None` when it is absent
      or falsy. */
  datatype ProfileSource =
    | Absent                 // no key, or an empty string: the page skips the parse
    | Unparsable             // `JSON.parse` throws
    | ParsedNull             // reading `null.name` throws inside the same `try`
    | ParsedObject(name: Option<string>, college: Option<string>, semester: Option<string>)
    | ParsedOther            // a number, boolean or string: every field reads as undefined

  /** The page state the actions work on. */
  datatype Page = Page(details: Details, editing: bool, totalViewed: nat, saved: seq<Material>)

  predicate IsBlank(d: Details)
  {
    d.name == "" && d.college == "" && d.semester == ""
  }

  /** `parsed.x || ""` for each field; anything but an object leaves the fields empty. */
  function LoadDetails(src: ProfileSource): (d: Details)
    ensures !src.ParsedObject? ==> d == Blank
    ensures src.ParsedObject? ==>
      d.name == OrEmpty(src.name) && d.college == OrEmpty(src.college) && d.semester == OrEmpty(src.semester)
  {
    match src
    case ParsedObject(n, c, s) => Details(OrEmpty(n), OrEmpty(c), OrEmpty(s))
    case _ => Blank
  }

  /** `Array.isArray(ids) ? ids.length : 0`, with a parse failure giving 0. */
  function TotalViewed(viewed: Stored<string>): (n: nat)
    ensures viewed.Array? ==> n == |viewed.items|
    ensures !viewed.Array? ==> n == 0
  {
    if viewed.Array? then |viewed.items| else 0
  }

  /** The count the profile shows grows by one exactly when a visit opens a
      material whose id the viewed list did not hold; revisits, a missing
      material and a stored value that is not a list leave it as it was. */
  lemma VisitCountsNewIdsOnly(material: Option<Material>, viewed: Stored<string>)
    ensures TotalViewed(Reading.Visit(material, viewed)) ==
      TotalViewed(viewed) +
        (if material.Some? && Reading.ListOf(viewed).Some? &&
            material.value.id !in Reading.ListOf(viewed).value then 1 else 0)
  {
    var r := Reading.Visit(material, viewed);
    if material.Some? && Reading.ListOf(viewed).Some? {
      var list := Reading.ListOf(viewed).value;
      assert |r.items| == |multiset(r.items)|;
      assert |list| == |multiset(list)|;
      assert TotalViewed(viewed) == |list|;
    }
  }

  /** The mount effect. The page starts in the form unless some field is set. */
  function Load(src: ProfileSource, viewed: Stored<string>, bookmarks: Stored<string>, shipped: seq<Material>)
    : (p: Page)
    ensures p.details == LoadDetails(src)
    ensures p.editing <==> IsBlank(p.details)
    ensures p.totalViewed == TotalViewed(viewed)
    ensures p.saved == Dashboard.Bookmarked(shipped, bookmarks)
  {
    var d := LoadDetails(src);
    Page(d, IsBlank(d), TotalViewed(viewed), Dashboard.Bookmarked(shipped, bookmarks))
  }

  /** A missing, unparsable or non-object profile opens the form with empty fields. */
  lemma NoProfileOpensForm(src: ProfileSource, viewed: Stored<string>, bookmarks: Stored<string>,
                           shipped: seq<Material>)
    requires !src.ParsedObject?
    ensures Load(src, viewed, bookmarks, shipped).editing
    ensures Load(src, viewed, bookmarks, shipped).details == Blank
  {
  }

  /** Which field `handleChange` sets. */
  datatype Field = Name | College | Semester

  function Get(d: Details, f: Field): string
  {
    match f
    case Name => d.name
    case College => d.college
    case Semester => d.semester
  }

  /** `handleChange(field, value)`: the named field takes the value; nothing else changes. */
  function HandleChange(p: Page, f: Field, value: string): (r: Page)
    ensures Get(r.details, f) == value
    ensures forall g :: g != f ==> Get(r.details, g) == Get(p.details, g)
    ensures r.editing == p.editing && r.totalViewed == p.totalViewed && r.saved == p.saved
  {
    var d := match f
      case Name => p.details.(name := value)
      case College => p.details.(college := value)
      case Semester => p.details.(semester := value)
    ;
    p.(details := d)
  }

  /** What `JSON.stringify(profile)` reads back as: an object with three strings. */
  function Stringify(d: Details): (src: ProfileSource)
    ensures src.ParsedObject?
    ensures LoadDetails(src) == d
  {
    ParsedObject(Some(d.name), Some(d.college), Some(d.semester))
  }

  /** `handleSaveProfile`: writes the profile and shows the card. */
  function Save(p: Page): (r: (Page, ProfileSource))
    ensures !r.0.editing
    ensures r.0.details == p.details && r.0.totalViewed == p.totalViewed && r.0.saved == p.saved
    ensures LoadDetails(r.1) == p.details
  {
    (p.(editing := false), Stringify(p.details))
  }

  /** `handleEditProfile`. */
  function Edit(p: Page): (r: Page)
    ensures r.editing && r.details == p.details
  {
    p.(editing := true)
  }

  /** `handleDeleteProfile`: declined, nothing changes; confirmed, the key is
      removed and the form reopens empty. `stored` is the key's current value. */
  function Delete(p: Page, stored: ProfileSource, confirmed: bool): (r: (Page, ProfileSource))
    ensures !confirmed ==> r == (p, stored)
    ensures confirmed ==> r.0.details == Blank && r.0.editing && r.1 == Absent
    ensures r.0.totalViewed == p.totalViewed && r.0.saved == p.saved
  {
    if !confirmed then (p, stored)
    else (p.(details := Blank, editing := true), Absent)
  }

  /** A saved profile loads back unchanged, and in card view exactly when a
      field is set: saving an empty profile shows the card now, the form next time. */
  lemma SaveThenLoad(p: Page, viewed: Stored<string>, bookmarks: Stored<string>, shipped: seq<Material>)
    ensures var loaded := Load(Save(p).1, viewed, bookmarks, shipped);
      loaded.details == p.details && (loaded.editing <==> IsBlank(p.details))
    ensures IsBlank(p.details) ==> !Save(p).0.editing && Load(Save(p).1, viewed, bookmarks, shipped).editing
  {
  }

  /** After a confirmed delete, the next visit opens the empty form as well. */
  lemma DeleteThenLoad(p: Page, stored: ProfileSource, viewed: Stored<string>, bookmarks: Stored<string>,
                       shipped: seq<Material>)
    ensures var deleted := Delete(p, stored, true);
      Load(deleted.1, viewed, bookmarks, shipped).details == deleted.0.details &&
      Load(deleted.1, viewed, bookmarks, shipped).editing == deleted.0.editing
  {
  }

  /** The saved list is the dashboard's rule over the shipped materials alone,
      so an admin material is never listed here even when its id is saved. */
  lemma SavedIgnoresAdminMaterials(src: ProfileSource, viewed: Stored<string>, bookmarks: Stored<string>,
                                   shipped: seq<Material>, m: Material)
    requires m !in shipped
    ensures m !in Load(src, viewed, bookmarks, shipped).saved
  {
  }
}

=== FILE: reading.dfy ===
/** The reading page: the material is looked up among the shipped materials
    only; opening it runs two effects on the viewed list (`bca_viewed`), and
    the save button toggles the id in the saved list (`bca_bookmarks`).

    Each update reads the key with `getItem(k) || "[]"` and a guarded
    `JSON.parse`, so a missing key or unparsable text gives an empty list. Any
    other non-array value lacks `push` (and `splice` / `filter`); every
    update then either throws or returns before its `setItem`, so storage is
    left as it was. An update's result is the list it writes, if any. */
module Reading {

  import opened Seqs
  import opened Storage
  import opened Catalog

  /** `materials.find((m) => m.id === materialId)` over the shipped list alone. */
  function Lookup(shipped: seq<Material>, materialId: string): (r: Option<Material>)
    ensures r.Some? ==> r.value in shipped && r.value.id == materialId
    ensures r.None? <==> forall i :: 0 <= i < |shipped| ==> shipped[i].id != materialId
    ensures forall i ::
              0 <= i < |shipped| && shipped[i].id == materialId && (forall j :: 0 <= j < i ==> shipped[j].id != materialId)
              ==> r == Some(shipped[i])
  {
    Find(shipped, (m: Material) => m.id == materialId)
  }

  /** An admin material whose id no shipped material carries is "not found". */
  lemma AdminMaterialNotFound(shipped: seq<Material>, admin: seq<Material>, m: Material)
    requires m in admin
    requires forall i :: 0 <= i < |shipped| ==> shipped[i].id != m.id
    ensures Lookup(shipped, m.id).None?
    ensures Lookup(shipped + admin, m.id).Some?
  {
    FindAppend(shipped, admin, (x: Material) => x.id == m.id);
  }

  /** The array an update works on: empty for a missing key or unparsable
      text, the stored array itself, and nothing for any other value. */
  function ListOf(v: Stored<string>): (r: Option<seq<string>>)
    ensures r.Some? <==> v.Missing? || v.Invalid? || v.Array?
    ensures v.Array? ==> r == Some(v.items)
    ensures (v.Missing? || v.Invalid?) ==> r == Some([])
  {
    match v
    case Missing => Some([])
    case Invalid => Some([])
    case Array(items) => Some(items)
    case _ => None
  }

  /** The stored value after an update that writes `written`, if it writes. */
  function After(v: Stored<string>, written: Option<seq<string>>): (r: Stored<string>)
    ensures written.Some? ==> r == Array(written.value)
    ensures written.None? ==> r == v
  {
    if written.Some? then Array(written.value) else v
  }

  /** The first effect: add the id at the end unless it is already there. */
  function MarkViewed(material: Option<Material>, viewed: Stored<string>): (written: Option<seq<string>>)
    ensures material.None? || ListOf(viewed).None? ==> written.None?
    ensures material.Some? && ListOf(viewed).Some? ==>
      (written.None? <==> material.value.id in ListOf(viewed).value)
    ensures written.Some? ==>
      && |written.value| == |ListOf(viewed).value| + 1
      && written.value[..|written.value| - 1] == ListOf(viewed).value
      && written.value[|written.value| - 1] == material.value.id
  {
    if material.None? then None
    else match ListOf(viewed)
      case None => None
      case Some(list) =>
        if material.value.id in list then None
        else
          var w := list + [material.value.id];
          assert w[..|w| - 1] == list;
          Some(w)
  }

  /** The second effect: drop the id's first occurrence, then add it at the end. */
  function MoveToEnd(material: Option<Material>, viewed: Stored<string>): (written: Option<seq<string>>)
    ensures written.Some? <==> material.Some? && ListOf(viewed).Some?
    ensures written.Some? ==>
      && |written.value| > 0
      && written.value[|written.value| - 1] == material.value.id
      && written.value[..|written.value| - 1] == RemoveFirst(ListOf(viewed).value, material.value.id)
      && multiset(written.value) ==
         multiset(ListOf(viewed).value) - multiset{material.value.id} + multiset{material.value.id}
  {
    if material.None? then None
    else match ListOf(viewed)
      case None => None
      case Some(list) =>
        var rest := RemoveFirst(list, material.value.id);
        var w := rest + [material.value.id];
        assert w[..|w| - 1] == rest;
        Some(w)
  }

  /** Both effects of one visit, in order, each reading what the other wrote.
      The id ends up last; the list gains it only if it was not there before,
      and otherwise keeps the same entries. */
  function Visit(material: Option<Material>, viewed: Stored<string>): (r: Stored<string>)
    ensures material.None? || ListOf(viewed).None? ==> r == viewed
    ensures material.Some? && ListOf(viewed).Some? ==>
      && r.Array? && |r.items| > 0
      && r.items[|r.items| - 1] == material.value.id
      && multiset(r.items) == multiset(ListOf(viewed).value) +
           (if material.value.id in ListOf(viewed).value then multiset{} else multiset{material.value.id})
  {
    var once := After(viewed, MarkViewed(material, viewed));
    if material.Some? && ListOf(viewed).Some? then
      MarkedList(material.value, viewed);
      After(once, MoveToEnd(material, once))
    else viewed
  }

  /** The list the second effect reads: the first effect's write, or the
      list itself when the id was already there. */
  lemma MarkedList(m: Material, viewed: Stored<string>)
    requires ListOf(viewed).Some?
    ensures var list := ListOf(viewed).value;
      ListOf(After(viewed, MarkViewed(Some(m), viewed))) == Some(if m.id in list then list else list + [m.id])
  {
  }

  /** Over any list, a visit drops the id's first occurrence (if any) and
      puts the id at the end. */
  lemma VisitMovesId(m: Material, viewed: Stored<string>)
    requires ListOf(viewed).Some?
    ensures Visit(Some(m), viewed) == Array(RemoveFirst(ListOf(viewed).value, m.id) + [m.id])
  {
    var list := ListOf(viewed).value;
    var once := After(viewed, MarkViewed(Some(m), viewed));
    MarkedList(m, viewed);
    MoveToEndOf(m, once);
    if m.id !in list {
      RemoveFirstAppended(list, m.id);
      assert RemoveFirst(ListOf(once).value, m.id) == RemoveFirst(list, m.id);
    }
    assert Visit(Some(m), viewed) == After(once, MoveToEnd(Some(m), once));
  }

  /** The second effect over a list, as one value. */
  lemma MoveToEndOf(m: Material, v: Stored<string>)
    requires ListOf(v).Some?
    ensures MoveToEnd(Some(m), v) == Some(RemoveFirst(ListOf(v).value, m.id) + [m.id])
  {
  }

  /** The ids a visit leaves before the visited one are the earlier list in
      its own order, less one occurrence of the id. */
  lemma VisitKeepsOthersInOrder(m: Material, viewed: Stored<string>)
    requires ListOf(viewed).Some?
    ensures var r := Visit(Some(m), viewed).items;
      IsSubseq(r[..|r| - 1], ListOf(viewed).value)
  {
    VisitMovesId(m, viewed);
    var rest := RemoveFirst(ListOf(viewed).value, m.id);
    assert (rest + [m.id])[..|rest|] == rest;
    RemoveFirstIsSubseq(ListOf(viewed).value, m.id);
  }

  /** From a duplicate-free list, a visit leaves the others in their order
      followed by the id, once: still duplicate-free, with the id last. */
  lemma VisitPutsIdLast(m: Material, viewed: Stored<string>)
    requires ListOf(viewed).Some? && NoDuplicates(ListOf(viewed).value)
    ensures Visit(Some(m), viewed) == Array(RemoveAll(ListOf(viewed).value, m.id) + [m.id])
    ensures NoDuplicates(RemoveAll(ListOf(viewed).value, m.id) + [m.id])
  {
    var list := ListOf(viewed).value;
    VisitMovesId(m, viewed);
    RemoveFirstIsRemoveAll(list, m.id);
    RemoveFirstNoDuplicates(list, m.id);
    AppendAbsentNoDuplicates(RemoveFirst(list, m.id), m.id);
  }

  /** Moving the same id to the end twice is moving it once. */
  lemma MoveToEndIdempotent(m: Material, viewed: seq<string>)
    requires NoDuplicates(viewed)
    ensures var once := MoveToEnd(Some(m), Array(viewed));
      MoveToEnd(Some(m), Array(once.value)) == once
  {
    RemoveFirstNoDuplicates(viewed, m.id);
    RemoveFirstAppended(RemoveFirst(viewed, m.id), m.id);
  }

  /** A visit with no material, or over a value that is not a list, leaves storage alone. */
  lemma VisitWithoutListChangesNothing(material: Option<Material>, viewed: Stored<string>)
    requires material.None? || ListOf(viewed).None?
    ensures Visit(material, viewed) == viewed
  {
  }

  /** What the save button writes, and the page's `bookmarked` flag after it. */
  datatype Toggled = Toggled(saved: seq<string>, bookmarked: bool)

  /** `toggleBookmark`: remove every copy of the id when present, else add it at the end. */
  function ToggleBookmark(material: Option<Material>, saved: Stored<string>): (r: Option<Toggled>)
    ensures r.Some? <==> material.Some? && ListOf(saved).Some?
    ensures r.Some? ==> (r.value.bookmarked <==> material.value.id !in ListOf(saved).value)
    ensures r.Some? ==> (material.value.id in r.value.saved <==> r.value.bookmarked)
    ensures r.Some? ==> forall y :: y != material.value.id ==>
      (y in r.value.saved <==> y in ListOf(saved).value)
    ensures r.Some? && r.value.bookmarked ==> r.value.saved == ListOf(saved).value + [material.value.id]
    ensures r.Some? && !r.value.bookmarked ==>
      && IsSubseq(r.value.saved, ListOf(saved).value)
      && multiset(r.value.saved) == multiset(ListOf(saved).value)[material.value.id := 0]
  {
    if material.None? then None
    else match ListOf(saved)
      case None => None
      case Some(list) =>
        var id := material.value.id;
        if id in list then
          var w := RemoveAll(list, id);
          assert IsSubseq(w, list) && multiset(w) == multiset(list)[id := 0] by {
            RemoveAllIsSubseq(list, id);
            RemoveAllMultiset(list, id);
          }
          assert forall y :: y != id ==> (y in w <==> y in list) by {
            forall y | y != id ensures y in w <==> y in list {
              assert y in w <==> y in multiset(w);
              assert y in list <==> y in multiset(list);
            }
          }
          Some(Toggled(w, false))
        else Some(Toggled(list + [id], true))
  }

  /** Saving and then unsaving an id that was not saved gives the list back. */
  lemma ToggleTwiceRestores(m: Material, saved: Stored<string>)
    requires ListOf(saved).Some? && m.id !in ListOf(saved).value
    ensures var first := ToggleBookmark(Some(m), saved).value;
      first.bookmarked &&
      ToggleBookmark(Some(m), Array(first.saved)) == Some(Toggled(ListOf(saved).value, false))
  {
    var list := ListOf(saved).value;
    var first := ToggleBookmark(Some(m), saved).value;
    assert first.saved == list + [m.id];
    RemoveAllAppend(list, [m.id], m.id);
    RemoveAllAbsent(list, m.id);
    assert RemoveAll([m.id], m.id) == [];
    assert RemoveAll(first.saved, m.id) == list;
  }

  /** With no material, or over a value that is not a list, the toggle does nothing. */
  lemma ToggleWithoutListChangesNothing(material: Option<Material>, saved: Stored<string>)
    requires material.None? || ListOf(saved).None?
    ensures ToggleBookmark(material, saved).None?
  {
  }
}

=== FILE: search.dfy ===
/** The advanced search page: merged materials joined with display names, a
    text filter, three id filters, and a sort on a copy of the result. */
module Search {

  import opened Seqs
  import opened Text
  import opened Catalog
  import opened Sorting

  /** A material with the names the search also matches against. */
  datatype Item = Item(material: Material, subjectName: string, semesterName: string, categoryName: string)

  /** `allSubjects.find((s) => s.id === id)?.name || ""`. */
  function SubjectName(all: seq<Subject>, id: string): (r: string)
    ensures (forall i :: 0 <= i < |all| ==> all[i].id != id) ==> r == ""
    ensures forall i :: (0 <= i < |all| && all[i].id == id &&
                         (forall j :: 0 <= j < i ==> all[j].id != id)) ==> r == all[i].name
  {
    match FirstIndex(all, (s: Subject) => s.id == id)
    case None => ""
    case Some(k) => all[k].name
  }

  function SemesterName(all: seq<Semester>, id: string): (r: string)
    ensures (forall i :: 0 <= i < |all| ==> all[i].id != id) ==> r == ""
    ensures forall i :: (0 <= i < |all| && all[i].id == id &&
                         (forall j :: 0 <= j < i ==> all[j].id != id)) ==> r == all[i].name
  {
    match FirstIndex(all, (s: Semester) => s.id == id)
    case None => ""
    case Some(k) => all[k].name
  }

  function CategoryName(all: seq<Category>, id: string): (r: string)
    ensures (forall i :: 0 <= i < |all| ==> all[i].id != id) ==> r == ""
    ensures forall i :: (0 <= i < |all| && all[i].id == id &&
                         (forall j :: 0 <= j < i ==> all[j].id != id)) ==> r == all[i].title
  {
    match FirstIndex(all, (c: Category) => c.id == id)
    case None => ""
    case Some(k) => all[k].title
  }

  /** `enrichedMaterials`: one item per merged material, in order. */
  function Enrich(all: Lists): (r: seq<Item>)
    ensures |r| == |all.materials|
    ensures forall i :: 0 <= i < |r| ==> r[i].material == all.materials[i]
    ensures forall i :: 0 <= i < |r| ==>
      && r[i].subjectName == SubjectName(all.subjects, all.materials[i].subjectId)
      && r[i].semesterName == SemesterName(all.semesters, all.materials[i].semesterId)
      && r[i].categoryName == CategoryName(all.categories, all.materials[i].categoryId)
  {
    seq(|all.materials|, i requires 0 <= i < |all.materials| =>
      var m := all.materials[i];
      Item(m, SubjectName(all.subjects, m.subjectId), SemesterName(all.semesters, m.semesterId),
           CategoryName(all.categories, m.categoryId)))
  }

  /** The search form. */
  datatype Query = Query(text: string, categoryId: string, semesterId: string, subjectId: string, sort: string)

  /** The sentinel of the three id selectors. */
  const Any: string := "all"

  /** The text test with the already lower-cased query `q`. */
  predicate TextMatches(q: string, x: Item)
  {
    || Includes(Lower(x.material.title), q)
    || Includes(Lower(x.subjectName), q)
    || Includes(Lower(x.categoryName), q)
    || Includes(Lower(OrEmpty(x.material.year)), q)
  }

  /** The four narrowing steps of `filteredResults`, in source order. */
  datatype Step = TextStep | CategoryStep | SemesterStep | SubjectStep

  /** Whether a step keeps an item (a disabled step keeps everything). */
  predicate Keeps(step: Step, q: Query, x: Item)
  {
    match step
    case TextStep => Trim(q.text) == "" || TextMatches(Lower(q.text), x)
    case CategoryStep => q.categoryId == Any || x.material.categoryId == q.categoryId
    case SemesterStep => q.semesterId == Any || x.material.semesterId == q.semesterId
    case SubjectStep => q.subjectId == Any || x.material.subjectId == q.subjectId
  }

  /** One step as the page runs it: skipped when disabled, otherwise a filter. */
  function Apply(step: Step, q: Query, items: seq<Item>): (r: seq<Item>)
    ensures forall x :: x in r <==> x in items && Keeps(step, q, x)
  {
    var enabled := match step
      case TextStep => Trim(q.text) != ""
      case CategoryStep => q.categoryId != Any
      case SemesterStep => q.semesterId != Any
      case SubjectStep => q.subjectId != Any;
    if !enabled then items
    else
      var r := Filter(items, (x: Item) => Keeps(step, q, x));
      assert forall x :: x in r <==> x in items && Keeps(step, q, x) by {
        forall x ensures x in r <==> x in items && Keeps(step, q, x) {
          FilterMembership(items, (y: Item) => Keeps(step, q, y), x);
        }
      }
      r
  }

  /** Every step is a filter by its own test, enabled or not. */
  lemma ApplyIsFilter(step: Step, q: Query, items: seq<Item>)
    ensures Apply(step, q, items) == Filter(items, (x: Item) => Keeps(step, q, x))
  {
    var enabled := match step
      case TextStep => Trim(q.text) != ""
      case CategoryStep => q.categoryId != Any
      case SemesterStep => q.semesterId != Any
      case SubjectStep => q.subjectId != Any;
    if !enabled {
      FilterAll(items, (x: Item) => Keeps(step, q, x));
    }
  }

  /** Any two steps commute, so the order of the narrowing steps does not matter. */
  lemma StepsCommute(s1: Step, s2: Step, q: Query, items: seq<Item>)
    ensures Apply(s1, q, Apply(s2, q, items)) == Apply(s2, q, Apply(s1, q, items))
  {
    ApplyIsFilter(s2, q, items);
    ApplyIsFilter(s1, q, items);
    ApplyIsFilter(s1, q, Apply(s2, q, items));
    ApplyIsFilter(s2, q, Apply(s1, q, items));
    FilterCommute(items, (x: Item) => Keeps(s1, q, x), (x: Item) => Keeps(s2, q, x));
  }

  /** An item passes every step of the query. */
  predicate Admits(q: Query, x: Item)
  {
    Keeps(TextStep, q, x) && Keeps(CategoryStep, q, x) && Keeps(SemesterStep, q, x) && Keeps(SubjectStep, q, x)
  }

  /** The result before sorting: text, then category, semester and subject. */
  function Narrow(items: seq<Item>, q: Query): (r: seq<Item>)
    ensures forall x :: x in r <==> x in items && Admits(q, x)
    ensures q.categoryId != Any ==> forall i :: 0 <= i < |r| ==> r[i].material.categoryId == q.categoryId
    ensures q.semesterId != Any ==> forall i :: 0 <= i < |r| ==> r[i].material.semesterId == q.semesterId
    ensures q.subjectId != Any ==> forall i :: 0 <= i < |r| ==> r[i].material.subjectId == q.subjectId
    ensures Trim(q.text) != "" ==> forall i :: 0 <= i < |r| ==> TextMatches(Lower(q.text), r[i])
  {
    var a1 := Apply(TextStep, q, items);
    var a2 := Apply(CategoryStep, q, a1);
    var a3 := Apply(SemesterStep, q, a2);
    var r := Apply(SubjectStep, q, a3);
    assert forall i :: 0 <= i < |r| ==> Admits(q, r[i]) by {
      forall i | 0 <= i < |r| ensures Admits(q, r[i]) {
        assert r[i] in r;
      }
    }
    r
  }

  /** Before sorting, the result is an order-preserving selection of the items:
      exactly one filter by all four tests. */
  lemma NarrowIsOrderedSelection(items: seq<Item>, q: Query)
    ensures Narrow(items, q) == Filter(items, (x: Item) => Admits(q, x))
    ensures IsSubseq(Narrow(items, q), items)
  {
    var t := (x: Item) => Keeps(TextStep, q, x);
    var c := (x: Item) => Keeps(CategoryStep, q, x);
    var s := (x: Item) => Keeps(SemesterStep, q, x);
    var u := (x: Item) => Keeps(SubjectStep, q, x);
    var tc := (x: Item) => t(x) && c(x);
    var tcs := (x: Item) => tc(x) && s(x);
    var a1 := Apply(TextStep, q, items);
    var a2 := Apply(CategoryStep, q, a1);
    var a3 := Apply(SemesterStep, q, a2);
    ApplyIsFilter(TextStep, q, items);
    ApplyIsFilter(CategoryStep, q, a1);
    ApplyIsFilter(SemesterStep, q, a2);
    ApplyIsFilter(SubjectStep, q, a3);
    FilterFuseTo(items, t, c, tc);
    FilterFuseTo(items, tc, s, tcs);
    FilterFuseTo(items, tcs, u, (x: Item) => Admits(q, x));
    FilterIsSubseq(items, (x: Item) => Admits(q, x));
  }

  /** With a blank query (after trimming) the text step keeps everything. */
  lemma BlankTextKeepsAll(items: seq<Item>, q: Query)
    requires AllSpace(q.text)
    ensures Apply(TextStep, q, items) == items
  {
    TrimEmptyIffAllSpace(q.text);
  }

  // ----------------------------------------------------------------------
  // Sorting

  /** The four comparators; `locale` stands for `String.prototype.localeCompare`. */
  function Newest(): (Item, Item) -> int
  {
    Descending((x: Item) => CreatedKey(x.material))
  }

  function Oldest(): (Item, Item) -> int
  {
    Ascending((x: Item) => CreatedKey(x.material))
  }

  function AToZ(locale: (string, string) -> int): (Item, Item) -> int
  {
    (a: Item, b: Item) => locale(a.material.title, b.material.title)
  }

  function ZToA(locale: (string, string) -> int): (Item, Item) -> int
  {
    (a: Item, b: Item) => locale(b.material.title, a.material.title)
  }

  /** The sort stage: one of four orders applied to a copy; any other option keeps the order. */
  function Order(items: seq<Item>, sort: string, locale: (string, string) -> int): (r: seq<Item>)
    ensures multiset(r) == multiset(items)
    ensures sort !in {"newest", "oldest", "az", "za"} ==> r == items
  {
    if sort == "newest" then SortBy(items, Newest())
    else if sort == "oldest" then SortBy(items, Oldest())
    else if sort == "az" then SortBy(items, AToZ(locale))
    else if sort == "za" then SortBy(items, ZToA(locale))
    else items
  }

  /** `filteredResults`: the filter stages first, the sort stage on what they keep. */
  function Results(items: seq<Item>, q: Query, locale: (string, string) -> int): (r: seq<Item>)
    ensures r == Order(Narrow(items, q), q.sort, locale)
    ensures multiset(r) == multiset(Narrow(items, q))
    ensures forall x :: x in r <==> x in items && Admits(q, x)
  {
    var n := Narrow(items, q);
    var r := Order(n, q.sort, locale);
    assert forall x :: x in r <==> x in multiset(r);
    r
  }

  /** "newest" puts larger `createdAt` first (missing counts as 0); "oldest" the reverse. */
  lemma TimeOrders(items: seq<Item>, locale: (string, string) -> int)
    ensures var r := Order(items, "newest", locale);
      forall i, j :: 0 <= i <= j < |r| ==> CreatedKey(r[i].material) >= CreatedKey(r[j].material)
    ensures var r := Order(items, "oldest", locale);
      forall i, j :: 0 <= i <= j < |r| ==> CreatedKey(r[i].material) <= CreatedKey(r[j].material)
  {
    var key := (x: Item) => CreatedKey(x.material);
    KeyComparatorsAntisymmetric(key);
    SortBySorted(items, Newest());
    DescendingEverywhere(SortBy(items, Newest()), key);
    SortBySorted(items, Oldest());
    AscendingEverywhere(SortBy(items, Oldest()), key);
  }

  /** "az" orders neighbours by the title comparator and "za" by its reverse,
      for any comparator that never ranks two titles each after the other. */
  lemma TitleOrders(items: seq<Item>, locale: (string, string) -> int)
    requires SignAntisymmetric(locale)
    ensures var r := Order(items, "az", locale);
      forall i :: 0 <= i < |r| - 1 ==> locale(r[i].material.title, r[i + 1].material.title) <= 0
    ensures var r := Order(items, "za", locale);
      forall i :: 0 <= i < |r| - 1 ==> locale(r[i + 1].material.title, r[i].material.title) <= 0
  {
    assert SignAntisymmetric(AToZ(locale)) by {
      forall a: Item, b: Item | AToZ(locale)(a, b) > 0 ensures AToZ(locale)(b, a) <= 0 {
        assert locale(a.material.title, b.material.title) > 0;
      }
    }
    assert SignAntisymmetric(ZToA(locale)) by {
      forall a: Item, b: Item | ZToA(locale)(a, b) > 0 ensures ZToA(locale)(b, a) <= 0 {
        assert locale(b.material.title, a.material.title) > 0;
      }
    }
    SortBySorted(items, AToZ(locale));
    SortBySorted(items, ZToA(locale));
  }

  /** Sorting a result that is already in "newest" order changes nothing. */
  lemma NewestIdempotent(items: seq<Item>, locale: (string, string) -> int)
    ensures Order(Order(items, "newest", locale), "newest", locale) == Order(items, "newest", locale)
  {
    KeyComparatorsAntisymmetric((x: Item) => CreatedKey(x.material));
    SortByIdempotent(items, Newest());
  }

  /** The results come in the order the sort option asks for: by creation
      time for "newest" and "oldest", and in the catalog's own order for an
      option the page does not know. */
  lemma ResultsInRequestedOrder(items: seq<Item>, q: Query, locale: (string, string) -> int)
    ensures var r := Results(items, q, locale);
      q.sort == "newest" ==>
        forall i, j :: 0 <= i <= j < |r| ==> CreatedKey(r[i].material) >= CreatedKey(r[j].material)
    ensures var r := Results(items, q, locale);
      q.sort == "oldest" ==>
        forall i, j :: 0 <= i <= j < |r| ==> CreatedKey(r[i].material) <= CreatedKey(r[j].material)
    ensures q.sort !in {"newest", "oldest", "az", "za"} ==>
      Results(items, q, locale) == Filter(items, (x: Item) => Admits(q, x))
  {
    TimeOrders(Narrow(items, q), locale);
    NarrowIsOrderedSelection(items, q);
  }
}

=== FILE: seqs.dfy ===
/** Sequence vocabulary shared by every screen of the portal: the array methods
    the components call (`filter`, `find`, `indexOf` + `splice`, `includes`,
    `slice(-n)`, `reverse`) stated once, with the facts the screens rely on. */
module Seqs {

  datatype Option<+T> = None | Some(value: T)

  /** `a` is an order-preserving subsequence of `b`: `a` is `b` with some elements left out. */
  predicate IsSubseq<T(==)>(a: seq<T>, b: seq<T>)
    decreases |b|
  {
    if |a| == 0 then true
    else if |b| == 0 then false
    else (a[0] == b[0] && IsSubseq(a[1..], b[1..])) || IsSubseq(a, b[1..])
  }

  /** `Array.prototype.filter`: the elements of `s` satisfying `p`, in order. */
  function Filter<T>(s: seq<T>, p: T -> bool): (r: seq<T>)
    ensures |r| <= |s|
    ensures forall i :: 0 <= i < |r| ==> p(r[i]) && r[i] in s
    ensures forall i :: 0 <= i < |s| && p(s[i]) ==> s[i] in r
  {
    if |s| == 0 then []
    else if p(s[0]) then [s[0]] + Filter(s[1..], p)
    else Filter(s[1..], p)
  }

  lemma {:induction false} FilterIsSubseq<T>(s: seq<T>, p: T -> bool)
    ensures IsSubseq(Filter(s, p), s)
  {
    if |s| > 0 {
      FilterIsSubseq(s[1..], p);
      var r := Filter(s, p);
      if p(s[0]) {
        assert r[1..] == Filter(s[1..], p);
      }
    }
  }

  /** Membership in a filter is exactly membership in the input plus the predicate. */
  lemma FilterMembership<T>(s: seq<T>, p: T -> bool, x: T)
    ensures x in Filter(s, p) <==> x in s && p(x)
  {
    if x in s && p(x) {
      var i :| 0 <= i < |s| && s[i] == x;
    }
  }

  /** Filtering a concatenation filters each part: base entries stay ahead of admin entries. */
  lemma {:induction false} FilterAppend<T>(a: seq<T>, b: seq<T>, p: T -> bool)
    ensures Filter(a + b, p) == Filter(a, p) + Filter(b, p)
  {
    if |a| > 0 {
      assert (a + b)[1..] == a[1..] + b;
      FilterAppend(a[1..], b, p);
    } else {
      assert a + b == b;
    }
  }

  /** A filter keeps every copy of an element it accepts and none of one it rejects. */
  lemma {:induction false} FilterMultiset<T>(s: seq<T>, p: T -> bool, x: T)
    ensures multiset(Filter(s, p))[x] == if p(x) then multiset(s)[x] else 0
  {
    if |s| > 0 {
      FilterMultiset(s[1..], p, x);
      assert s == [s[0]] + s[1..];
      assert multiset(s) == multiset([s[0]]) + multiset(s[1..]);
      if p(s[0]) {
        assert multiset(Filter(s, p)) == multiset([s[0]]) + multiset(Filter(s[1..], p));
      }
    }
  }

  lemma FilterCounts<T>(s: seq<T>, p: T -> bool)
    ensures forall x :: multiset(Filter(s, p))[x] == if p(x) then multiset(s)[x] else 0
  {
    forall x { FilterMultiset(s, p, x); }
  }

  /** Two successive filters are one filter by the conjunction. */
  lemma {:induction false} FilterFuse<T>(s: seq<T>, p: T -> bool, q: T -> bool)
    ensures Filter(Filter(s, p), q) == Filter(s, x => p(x) && q(x))
  {
    if |s| > 0 {
      FilterFuse(s[1..], p, q);
      if p(s[0]) {
        assert ([s[0]] + Filter(s[1..], p))[1..] == Filter(s[1..], p);
      }
    }
  }

  /** Two successive filters keep the input's order. */
  lemma FilterTwiceIsSubseq<T>(s: seq<T>, p: T -> bool, q: T -> bool)
    ensures IsSubseq(Filter(Filter(s, p), q), s)
  {
    FilterFuse(s, p, q);
    FilterIsSubseq(s, x => p(x) && q(x));
  }

  /** Two successive filters are one filter by any predicate equal to their conjunction. */
  lemma FilterFuseTo<T>(s: seq<T>, p: T -> bool, q: T -> bool, r: T -> bool)
    requires forall i :: 0 <= i < |s| ==> r(s[i]) == (p(s[i]) && q(s[i]))
    ensures Filter(Filter(s, p), q) == Filter(s, r)
  {
    FilterFuse(s, p, q);
    FilterCongruent(s, x => p(x) && q(x), r);
  }

  /** Successive filters commute. */
  lemma FilterCommute<T>(s: seq<T>, p: T -> bool, q: T -> bool)
    ensures Filter(Filter(s, p), q) == Filter(Filter(s, q), p)
  {
    FilterFuse(s, p, q);
    FilterFuse(s, q, p);
    FilterCongruent(s, x => p(x) && q(x), x => q(x) && p(x));
  }

  /** A filter whose predicate holds everywhere is the identity. */
  lemma {:induction false} FilterAll<T>(s: seq<T>, p: T -> bool)
    requires forall i :: 0 <= i < |s| ==> p(s[i])
    ensures Filter(s, p) == s
  {
    if |s| > 0 {
      FilterAll(s[1..], p);
    }
  }

  /** A predicate and its negation split a sequence between them. */
  lemma {:induction false} FilterComplementLength<T>(s: seq<T>, p: T -> bool, q: T -> bool)
    requires forall i :: 0 <= i < |s| ==> q(s[i]) == !p(s[i])
    ensures |Filter(s, p)| + |Filter(s, q)| == |s|
  {
    if |s| > 0 {
      FilterComplementLength(s[1..], p, q);
    }
  }

  /** Two predicates that agree on the elements of `s` filter it alike. */
  lemma {:induction false} FilterCongruent<T>(s: seq<T>, p: T -> bool, q: T -> bool)
    requires forall i :: 0 <= i < |s| ==> p(s[i]) == q(s[i])
    ensures Filter(s, p) == Filter(s, q)
  {
    if |s| > 0 {
      FilterCongruent(s[1..], p, q);
    }
  }

  /** `findIndex`: the position of the first element satisfying `p`. */
  function FirstIndex<T>(s: seq<T>, p: T -> bool): (r: Option<nat>)
    ensures r.Some? ==> r.value < |s| && p(s[r.value])
    ensures r.Some? ==> forall j :: 0 <= j < r.value ==> !p(s[j])
    ensures r.None? <==> forall j :: 0 <= j < |s| ==> !p(s[j])
  {
    if |s| == 0 then None
    else if p(s[0]) then Some(0)
    else match FirstIndex(s[1..], p)
      case None => None
      case Some(k) => Some(k + 1)
  }

  /** `Array.prototype.find`: the first element satisfying `p`, if any. */
  function Find<T>(s: seq<T>, p: T -> bool): (r: Option<T>)
    ensures r.Some? ==> r.value in s && p(r.value)
    ensures r.None? <==> forall j :: 0 <= j < |s| ==> !p(s[j])
    ensures r.Some? ==> exists k :: 0 <= k < |s| && s[k] == r.value && forall j :: 0 <= j < k ==> !p(s[j])
    ensures forall k :: 0 <= k < |s| && p(s[k]) && (forall j :: 0 <= j < k ==> !p(s[j])) ==> r == Some(s[k])
  {
    match FirstIndex(s, p)
    case None => None
    case Some(k) => Some(s[k])
  }

  /** A satisfying position with no satisfying position before it is the first one. */
  lemma {:induction false} FirstIndexIs<T>(s: seq<T>, p: T -> bool, k: nat)
    requires k < |s| && p(s[k])
    requires forall j :: 0 <= j < k ==> !p(s[j])
    ensures FirstIndex(s, p) == Some(k)
  {
    if k > 0 {
      FirstIndexIs(s[1..], p, k - 1);
    }
  }

  /** `find` over a concatenation answers from the first part whenever it can. */
  lemma FindAppend<T>(a: seq<T>, b: seq<T>, p: T -> bool)
    ensures Find(a, p).Some? ==> Find(a + b, p) == Find(a, p)
    ensures Find(a, p).None? ==> Find(a + b, p) == Find(b, p)
  {
    var ia := FirstIndex(a, p);
    if ia.Some? {
      forall j | 0 <= j < ia.value ensures !p((a + b)[j]) {
        assert (a + b)[j] == a[j];
      }
      assert (a + b)[ia.value] == a[ia.value];
      FirstIndexIs(a + b, p, ia.value);
    } else {
      var ib := FirstIndex(b, p);
      forall j | 0 <= j < |a| ensures !p((a + b)[j]) {
        assert (a + b)[j] == a[j];
      }
      if ib.Some? {
        forall j | 0 <= j < |a| + ib.value ensures !p((a + b)[j]) {
          if j >= |a| {
            assert (a + b)[j] == b[j - |a|];
          }
        }
        assert (a + b)[|a| + ib.value] == b[ib.value];
        FirstIndexIs(a + b, p, |a| + ib.value);
      } else {
        forall j | |a| <= j < |a + b| ensures !p((a + b)[j]) {
          assert (a + b)[j] == b[j - |a|];
        }
      }
    }
  }

  /** `indexOf` followed by `splice(i, 1)` when found: drops the first occurrence of `x`. */
  function RemoveFirst<T(==)>(s: seq<T>, x: T): (r: seq<T>)
    ensures x !in s ==> r == s
    ensures x in s ==> |r| == |s| - 1
    ensures multiset(r) == multiset(s) - multiset{x}
  {
    if |s| == 0 then []
    else if s[0] == x then (assert s == [s[0]] + s[1..]; s[1..])
    else (assert s == [s[0]] + s[1..]; [s[0]] + RemoveFirst(s[1..], x))
  }

  /** Removing the first occurrence keeps the other elements in their order. */
  lemma {:induction false} RemoveFirstIsSubseq<T>(s: seq<T>, x: T)
    ensures IsSubseq(RemoveFirst(s, x), s)
  {
    if |s| > 0 {
      if s[0] == x {
        SubseqOfTail(s[1..], s);
      } else {
        RemoveFirstIsSubseq(s[1..], x);
        assert RemoveFirst(s, x)[1..] == RemoveFirst(s[1..], x);
      }
    }
  }

  /** `b[1..]` is a subsequence of `b`. */
  lemma SubseqOfTail<T>(t: seq<T>, b: seq<T>)
    requires |b| > 0 && t == b[1..]
    ensures IsSubseq(t, b)
  {
    SubseqRefl(t);
  }

  lemma {:induction false} SubseqRefl<T>(s: seq<T>)
    ensures IsSubseq(s, s)
  {
    if |s| > 0 {
      SubseqRefl(s[1..]);
    }
  }

  /** `filter((y) => y !== x)`: every occurrence of `x` removed. */
  function RemoveAll<T(==)>(s: seq<T>, x: T): (r: seq<T>)
    ensures x !in r
    ensures forall i :: 0 <= i < |r| ==> r[i] in s
    ensures forall i :: 0 <= i < |s| && s[i] != x ==> s[i] in r
  {
    Filter(s, y => y != x)
  }

  /** Removing every occurrence keeps each other element's count and zeroes `x`'s. */
  lemma {:induction false} RemoveAllMultiset<T>(s: seq<T>, x: T)
    ensures multiset(RemoveAll(s, x)) == multiset(s)[x := 0]
  {
    if |s| > 0 {
      RemoveAllMultiset(s[1..], x);
      assert s == [s[0]] + s[1..];
      RemoveAllAppend([s[0]], s[1..], x);
      if s[0] == x {
        assert RemoveAll([s[0]], x) == [];
      } else {
        assert RemoveAll([s[0]], x) == [s[0]];
      }
    }
  }

  /** Removing every occurrence keeps the other elements in their order. */
  lemma RemoveAllIsSubseq<T>(s: seq<T>, x: T)
    ensures IsSubseq(RemoveAll(s, x), s)
  {
    FilterIsSubseq(s, y => y != x);
  }

  /** Removing an element that is absent changes nothing. */
  lemma RemoveAllAbsent<T>(s: seq<T>, x: T)
    requires x !in s
    ensures RemoveAll(s, x) == s
  {
    FilterAll(s, y => y != x);
  }

  /** Removing from a concatenation removes from each part. */
  lemma RemoveAllAppend<T>(a: seq<T>, b: seq<T>, x: T)
    ensures RemoveAll(a + b, x) == RemoveAll(a, x) + RemoveAll(b, x)
  {
    FilterAppend(a, b, y => y != x);
  }

  /** No element occurs twice. */
  predicate NoDuplicates<T(==)>(s: seq<T>)
  {
    forall i, j :: 0 <= i < j < |s| ==> s[i] != s[j]
  }

  /** Removing one occurrence from a duplicate-free list leaves it duplicate-free and without `x`. */
  lemma {:induction false} RemoveFirstNoDuplicates<T>(s: seq<T>, x: T)
    requires NoDuplicates(s)
    ensures NoDuplicates(RemoveFirst(s, x)) && x !in RemoveFirst(s, x)
  {
    if |s| > 0 {
      assert NoDuplicates(s[1..]);
      if s[0] == x {
        assert forall i :: 0 <= i < |s[1..]| ==> s[1..][i] == s[i + 1];
      } else {
        RemoveFirstNoDuplicates(s[1..], x);
        var t := RemoveFirst(s[1..], x);
        assert multiset(t) == multiset(s[1..]) - multiset{x};
        assert s[0] !in s[1..];
        assert multiset(s[1..])[s[0]] == 0;
        assert multiset(t)[s[0]] == 0;
      }
    }
  }

  /** Appending an absent element to a duplicate-free list keeps it duplicate-free. */
  lemma AppendAbsentNoDuplicates<T>(s: seq<T>, x: T)
    requires NoDuplicates(s) && x !in s
    ensures NoDuplicates(s + [x])
  {
    forall i, j | 0 <= i < j < |s + [x]| ensures (s + [x])[i] != (s + [x])[j] {
      assert (s + [x])[i] == s[i];
      if j == |s| {
        assert s[i] in s;
      } else {
        assert (s + [x])[j] == s[j];
      }
    }
  }

  /** Appending an absent element and removing its first occurrence gives the list back. */
  lemma {:induction false} RemoveFirstAppended<T>(s: seq<T>, x: T)
    requires x !in s
    ensures RemoveFirst(s + [x], x) == s
  {
    if |s| > 0 {
      assert (s + [x])[1..] == s[1..] + [x];
      RemoveFirstAppended(s[1..], x);
    }
  }

  /** In a duplicate-free list the first occurrence is the only one. */
  lemma {:induction false} RemoveFirstIsRemoveAll<T>(s: seq<T>, x: T)
    requires NoDuplicates(s)
    ensures RemoveFirst(s, x) == RemoveAll(s, x)
  {
    if |s| > 0 {
      assert NoDuplicates(s[1..]);
      if s[0] == x {
        assert x !in s[1..];
        RemoveAllAbsent(s[1..], x);
        assert RemoveAll(s, x) == RemoveAll(s[1..], x);
      } else {
        RemoveFirstIsRemoveAll(s[1..], x);
        assert RemoveAll(s, x) == [s[0]] + RemoveAll(s[1..], x);
      }
    }
  }

  /** `slice(-n)`: the last `n` elements (all of them when there are fewer). */
  function LastN<T>(s: seq<T>, n: nat): (r: seq<T>)
    ensures |r| == if |s| < n then |s| else n
    ensures forall i :: 0 <= i < |r| ==> r[i] == s[|s| - |r| + i]
  {
    if |s| <= n then s else s[|s| - n..]
  }

  /** `reverse`. */
  function Reverse<T>(s: seq<T>): (r: seq<T>)
    ensures |r| == |s|
    ensures forall i :: 0 <= i < |s| ==> r[i] == s[|s| - 1 - i]
  {
    if |s| == 0 then [] else [s[|s| - 1]] + Reverse(s[..|s| - 1])
  }
}

=== FILE: session.dfy ===
/** Student and admin sign-in with hard-coded accounts, the session flags they
    write, the admin route guard, and the two logouts. Credentials are
    compared as exact strings: no trimming, no case folding. */
module Session {

  import opened Seqs
  import opened Storage
  import opened Catalog
  import Profile

  const StudentEmail: string := "student@bca.com"
  const PremiumEmail: string := "premium@bca.com"
  const AdminEmail: string := "admin@bca.com"
  const SharedPassword: string := "123456"

  const MissingFields: string := "Please enter email and password"
  const BadCredentials: string := "Invalid email or password"
  const BadAdminCredentials: string := "Invalid admin credentials"

  /** The profiles written at sign-in. */
  const StudentDetails: Profile.Details := Profile.Details("Chandan Kumar", "Annada College, Hazaribagh", "Semester 1")
  const PremiumDetails: Profile.Details :=
    Profile.Details("Chandan Kumar (Premium)", "Annada College, Hazaribagh", "Semester 1")

  /** What a sign-in attempt leaves behind: the flags, the profile written
      under `bca_profile` (if any), the error shown, and whether it navigates home. */
  datatype SignIn = SignIn(flags: FlagStore, profile: Option<Profile.Details>, error: string, home: bool)

  /** `handleSubmit` of the student sign-in form. */
  function Login(flags: FlagStore, email: string, password: string): (r: SignIn)
    ensures r.home <==> email != "" && password != "" && password == SharedPassword &&
                        (email == StudentEmail || email == PremiumEmail)
    ensures (email == "" || password == "") ==> r == SignIn(flags, None, MissingFields, false)
    ensures !r.home && email != "" && password != "" ==> r == SignIn(flags, None, BadCredentials, false)
    ensures r.home ==>
      && r.error == ""
      && HasText(r.flags, AuthKey, "true")
      && (HasText(r.flags, PremiumKey, "true") <==> email == PremiumEmail)
      && (HasText(r.flags, PremiumKey, "false") <==> email == StudentEmail)
      && r.profile == Some(if email == PremiumEmail then PremiumDetails else StudentDetails)
      && (forall k :: k != AuthKey && k != PremiumKey ==> (k in r.flags <==> k in flags))
      && (forall k :: k != AuthKey && k != PremiumKey && k in flags ==> r.flags[k] == flags[k])
  {
    if email == "" || password == "" then SignIn(flags, None, MissingFields, false)
    else if email == StudentEmail && password == SharedPassword then
      SignIn(flags[AuthKey := "true"][PremiumKey := "false"], Some(StudentDetails), "", true)
    else if email == PremiumEmail && password == SharedPassword then
      SignIn(flags[AuthKey := "true"][PremiumKey := "true"], Some(PremiumDetails), "", true)
    else SignIn(flags, None, BadCredentials, false)
  }

  /** The comparison is exact: a capital letter or a stray space is a wrong account. */
  lemma CredentialsAreExact(flags: FlagStore)
    ensures Login(flags, "Student@bca.com", "123456") == SignIn(flags, None, BadCredentials, false)
    ensures Login(flags, "student@bca.com ", "123456") == SignIn(flags, None, BadCredentials, false)
    ensures Login(flags, "student@bca.com", "123456 ") == SignIn(flags, None, BadCredentials, false)
  {
    assert "Student@bca.com"[0] != StudentEmail[0];
    assert |"student@bca.com "| != |StudentEmail|;
    assert |"123456 "| != |SharedPassword|;
  }

  /** The profile a successful sign-in writes opens the profile page in card view. */
  lemma SignInProfileShowsCard(flags: FlagStore, email: string, password: string,
                               viewed: Stored<string>, bookmarks: Stored<string>, shipped: seq<Material>)
    requires Login(flags, email, password).home
    ensures var d := Login(flags, email, password).profile.value;
      var page := Profile.Load(Profile.Stringify(d), viewed, bookmarks, shipped);
      page.details == d && !page.editing
  {
  }

  /** The navbar's logout: both student flags go; everything else stays. */
  function Logout(flags: FlagStore): (r: FlagStore)
    ensures AuthKey !in r && PremiumKey !in r
    ensures forall k :: k != AuthKey && k != PremiumKey ==> (k in r <==> k in flags)
    ensures forall k :: k in r ==> r[k] == flags[k]
  {
    Remove(Remove(flags, AuthKey), PremiumKey)
  }

  /** What an admin sign-in attempt leaves behind. */
  datatype AdminSignIn = AdminSignIn(flags: FlagStore, error: string, toAdmin: bool)

  /** `handleSubmit` of the admin sign-in form. */
  function AdminLogin(flags: FlagStore, email: string, password: string): (r: AdminSignIn)
    ensures r.toAdmin <==> email == AdminEmail && password == SharedPassword
    ensures (email == "" || password == "") ==> r == AdminSignIn(flags, MissingFields, false)
    ensures !r.toAdmin && email != "" && password != "" ==> r == AdminSignIn(flags, BadAdminCredentials, false)
    ensures r.toAdmin ==> r.error == "" && r.flags == flags[AdminAuthKey := "true"]
  {
    if email == "" || password == "" then AdminSignIn(flags, MissingFields, false)
    else if email == AdminEmail && password == SharedPassword then
      AdminSignIn(flags[AdminAuthKey := "true"], "", true)
    else AdminSignIn(flags, BadAdminCredentials, false)
  }

  /** `AdminProtectedRoute`: admits iff the stored flag is exactly "true". */
  predicate AdminAdmitted(flags: FlagStore)
  {
    HasText(flags, AdminAuthKey, "true")
  }

  /** Where `AdminProtectedRoute` sends a visitor: nowhere (the admin screen
      renders) when admitted, otherwise a redirect to the admin sign-in. */
  function AdminGuard(flags: FlagStore): (redirect: Option<string>)
    ensures redirect.None? <==> AdminAuthKey in flags && flags[AdminAuthKey] == "true"
    ensures redirect.Some? ==> redirect.value == AdminLoginPath
  {
    if AdminAdmitted(flags) then None else Some(AdminLoginPath)
  }

  const AdminLoginPath: string := "/admin/login"

  /** The admin screen's logout. */
  function AdminLogout(flags: FlagStore): (r: FlagStore)
    ensures AdminAuthKey !in r
    ensures forall k :: k != AdminAuthKey ==> (k in r <==> k in flags)
    ensures forall k :: k in r ==> r[k] == flags[k]
  {
    Remove(flags, AdminAuthKey)
  }

  /** The guard admits after an admin sign-in, rejects after an admin logout,
      and rejects any other flag text. */
  lemma AdminGuardFollowsSession(flags: FlagStore)
    ensures AdminAdmitted(AdminLogin(flags, AdminEmail, SharedPassword).flags)
    ensures !AdminAdmitted(AdminLogout(flags))
    ensures !AdminAdmitted(flags[AdminAuthKey := "TRUE"])
  {
  }

  /** Student sign-in and logout never open or close the admin screen. */
  lemma StudentSessionLeavesAdminAlone(flags: FlagStore, email: string, password: string)
    ensures AdminAdmitted(Login(flags, email, password).flags) == AdminAdmitted(flags)
    ensures AdminAdmitted(Logout(flags)) == AdminAdmitted(flags)
  {
    assert AdminAuthKey != AuthKey && AdminAuthKey != PremiumKey;
  }
}

=== FILE: sorting.dfy ===
/** `[...list].sort(compare)` with a JavaScript comparator: `compare(a, b) > 0`
    means `a` belongs after `b`. The engine's sort is stable; it is modelled as
    a stable insertion sort on a copy (a `seq` value, so the input is untouched). */
module Sorting {

  /** If `a` belongs after `b`, then `b` does not belong after `a`. Every
      comparator the search page passes has this property for its inputs. */
  ghost predicate SignAntisymmetric<T(!new)>(compare: (T, T) -> int)
  {
    forall a, b :: compare(a, b) > 0 ==> compare(b, a) <= 0
  }

  /** No neighbour pair is out of order. */
  predicate Sorted<T>(s: seq<T>, compare: (T, T) -> int)
  {
    forall i :: 0 <= i < |s| - 1 ==> compare(s[i], s[i + 1]) <= 0
  }

  /** Inserts `x` after every trailing element it does not belong before. */
  function Insert<T>(s: seq<T>, x: T, compare: (T, T) -> int): (r: seq<T>)
    ensures |r| == |s| + 1
    ensures multiset(r) == multiset(s) + multiset{x}
    ensures r[|r| - 1] == x || (|s| > 0 && r[|r| - 1] == s[|s| - 1])
  {
    if |s| == 0 || compare(s[|s| - 1], x) <= 0 then s + [x]
    else
      var init := s[..|s| - 1];
      assert s == init + [s[|s| - 1]];
      Insert(init, x, compare) + [s[|s| - 1]]
  }

  /** The sorted copy: a permutation of the input. */
  function SortBy<T>(s: seq<T>, compare: (T, T) -> int): (r: seq<T>)
    ensures |r| == |s|
    ensures multiset(r) == multiset(s)
  {
    if |s| == 0 then []
    else
      var init := s[..|s| - 1];
      assert s == init + [s[|s| - 1]];
      Insert(SortBy(init, compare), s[|s| - 1], compare)
  }

  lemma {:induction false} InsertKeepsSorted<T(!new)>(s: seq<T>, x: T, compare: (T, T) -> int)
    requires SignAntisymmetric(compare)
    requires Sorted(s, compare)
    ensures Sorted(Insert(s, x, compare), compare)
  {
    if |s| > 0 && compare(s[|s| - 1], x) > 0 {
      var init := s[..|s| - 1];
      InsertKeepsSorted(init, x, compare);
      var r' := Insert(init, x, compare);
      var r := r' + [s[|s| - 1]];
      assert compare(r'[|r'| - 1], s[|s| - 1]) <= 0 by {
        if r'[|r'| - 1] != x {
          assert r'[|r'| - 1] == s[|s| - 2];
        }
      }
      assert forall i :: 0 <= i < |r'| ==> r[i] == r'[i];
    }
  }

  /** The sorted copy is sorted. */
  lemma {:induction false} SortBySorted<T(!new)>(s: seq<T>, compare: (T, T) -> int)
    requires SignAntisymmetric(compare)
    ensures Sorted(SortBy(s, compare), compare)
  {
    if |s| > 0 {
      SortBySorted(s[..|s| - 1], compare);
      InsertKeepsSorted(SortBy(s[..|s| - 1], compare), s[|s| - 1], compare);
    }
  }

  /** A prefix of a sorted list is sorted. */
  lemma SortedPrefix<T>(s: seq<T>, compare: (T, T) -> int)
    requires Sorted(s, compare) && |s| > 0
    ensures Sorted(s[..|s| - 1], compare)
  {
    var init := s[..|s| - 1];
    forall i | 0 <= i < |init| - 1 ensures compare(init[i], init[i + 1]) <= 0 {
      assert init[i] == s[i] && init[i + 1] == s[i + 1];
    }
  }

  /** An element that does not belong before the last one goes at the end. */
  lemma InsertAtEnd<T>(s: seq<T>, x: T, compare: (T, T) -> int)
    requires |s| == 0 || compare(s[|s| - 1], x) <= 0
    ensures Insert(s, x, compare) == s + [x]
  {
  }

  /** Sorting an already sorted list leaves it as it is. */
  lemma {:induction false} SortedIsFixpoint<T>(s: seq<T>, compare: (T, T) -> int)
    requires Sorted(s, compare)
    ensures SortBy(s, compare) == s
  {
    if |s| > 0 {
      var init := s[..|s| - 1];
      var last := s[|s| - 1];
      // The last neighbour pair of `s` is what lets `last` go straight to the end.
      var tail := if |s| > 1 then compare(s[|s| - 2], s[|s| - 1]) else 0;
      assert tail <= 0;
      SortedPrefix(s, compare);
      SortedIsFixpoint(init, compare);
      InsertAtEnd(init, last, compare);
      assert s == init + [last];
    }
  }

  /** Sorting is idempotent. */
  lemma SortByIdempotent<T(!new)>(s: seq<T>, compare: (T, T) -> int)
    requires SignAntisymmetric(compare)
    ensures SortBy(SortBy(s, compare), compare) == SortBy(s, compare)
  {
    SortBySorted(s, compare);
    SortedIsFixpoint(SortBy(s, compare), compare);
  }

  /** Comparing by an integer key ascending: `(a, b) => key(a) - key(b)`. */
  function Ascending<T>(key: T -> int): (compare: (T, T) -> int)
  {
    (a, b) => key(a) - key(b)
  }

  /** Comparing by an integer key descending: `(a, b) => key(b) - key(a)`. */
  function Descending<T>(key: T -> int): (compare: (T, T) -> int)
  {
    (a, b) => key(b) - key(a)
  }

  lemma KeyComparatorsAntisymmetric<T(!new)>(key: T -> int)
    ensures SignAntisymmetric(Ascending(key))
    ensures SignAntisymmetric(Descending(key))
  {
  }

  /** Neighbour order by an ascending key is order between any two positions. */
  lemma {:induction false} AscendingEverywhere<T>(s: seq<T>, key: T -> int)
    requires Sorted(s, Ascending(key))
    ensures forall i, j :: 0 <= i <= j < |s| ==> key(s[i]) <= key(s[j])
  {
    if |s| > 1 {
      AscendingEverywhere(s[1..], key);
      assert forall j :: 1 <= j < |s| ==> s[j] == s[1..][j - 1];
      assert Ascending(key)(s[0], s[1]) <= 0;
    }
  }

  lemma {:induction false} DescendingEverywhere<T>(s: seq<T>, key: T -> int)
    requires Sorted(s, Descending(key))
    ensures forall i, j :: 0 <= i <= j < |s| ==> key(s[i]) >= key(s[j])
  {
    if |s| > 1 {
      DescendingEverywhere(s[1..], key);
      assert forall j :: 1 <= j < |s| ==> s[j] == s[1..][j - 1];
      assert Descending(key)(s[0], s[1]) <= 0;
    }
  }
}

=== FILE: storage.dfy ===
/** Browser local storage as the screens see it. A list-valued key is read with
    `localStorage.getItem(key)` and `JSON.parse`; `Stored` is what that read
    produces. Flag keys are compared as raw text, so the flag store is a map
    from key to the stored string. */
module Storage {

  /** The outcome of reading one key and parsing it as JSON. */
  datatype Stored<T> =
    | Missing              // `getItem` gave null or "": callers substitute "[]"
    | Invalid              // the text is not JSON: `JSON.parse` throws
    | Null                 // JSON `null`
    | Array(items: seq<T>) // a JSON array
    | Falsy                // JSON `false`, `0` or `""`
    | Text(text: string)   // a non-empty JSON string
    | Truthy               // JSON `true`, a non-zero number, or an object

  /** Storing a list with `JSON.stringify` and reading it back gives the list. */
  function Saved<T>(items: seq<T>): (v: Stored<T>)
    ensures v.Array? && v.items == items
  {
    Array(items)
  }

  /** `getItem(k) || "[]"` followed by `JSON.parse` and an `Array.isArray` check,
      with a parse failure caught: the list, or empty for anything else. */
  function ArrayOrEmpty<T>(v: Stored<T>): (r: seq<T>)
    ensures v.Array? ==> r == v.items
    ensures !v.Array? ==> r == []
  {
    if v.Array? then v.items else []
  }

  /** The text-valued flag keys (`bca_auth`, `bca_isPremium`, `bca_admin_auth`).
      The profile under `bca_profile` is kept apart: the profile page reads it
      as a parsed `Profile.ProfileSource`, and a sign-in's write is the
      `profile` field of its result. */
  type FlagStore = map<string, string>

  const AuthKey: string := "bca_auth"
  const PremiumKey: string := "bca_isPremium"
  const AdminAuthKey: string := "bca_admin_auth"

  /** `localStorage.getItem(key) === value`. */
  predicate HasText(store: FlagStore, key: string, value: string)
  {
    key in store && store[key] == value
  }

  /** `localStorage.removeItem(key)`. */
  function Remove(store: FlagStore, key: string): (r: FlagStore)
    ensures key !in r
    ensures forall k :: k in store && k != key ==> k in r && r[k] == store[k]
    ensures forall k :: k in r ==> k in store
  {
    store - {key}
  }
}

=== FILE: text.dfy ===
/** The string operations the screens use: `toLowerCase`, `includes`, `trim`,
    the decimal rendering of a timestamp, and `/`-separated route paths. */
module Text {

  import opened Seqs

  /** `toLowerCase` on one character (ASCII letters; see README). */
  function LowerChar(c: char): (r: char)
    ensures 'A' <= c <= 'Z' ==> 'a' <= r <= 'z'
    ensures !('A' <= c <= 'Z') ==> r == c
    ensures !('A' <= r <= 'Z')
  {
    if 'A' <= c <= 'Z' then (c as int + 32) as char else c
  }

  /** `toLowerCase`. */
  function Lower(s: string): (r: string)
    ensures |r| == |s|
    ensures forall i :: 0 <= i < |s| ==> r[i] == LowerChar(s[i])
  {
    seq(|s|, i requires 0 <= i < |s| => LowerChar(s[i]))
  }

  /** Lower-casing is idempotent, so a query already in lower case is unchanged by it. */
  lemma LowerIdempotent(s: string)
    ensures Lower(Lower(s)) == Lower(s)
  {
  }

  /** `q` occurs in `s` starting at position `i`. */
  predicate OccursAt(s: string, q: string, i: int)
  {
    0 <= i && i + |q| <= |s| && s[i..i + |q|] == q
  }

  /** `String.prototype.includes`: `q` occurs somewhere in `s`. */
  predicate Includes(s: string, q: string)
  {
    exists i | 0 <= i <= |s| - |q| :: OccursAt(s, q, i)
  }

  /** The empty string occurs in every string. */
  lemma IncludesEmpty(s: string)
    ensures Includes(s, "")
  {
    assert OccursAt(s, "", 0);
  }

  /** A string lacking one of `q`'s characters cannot include `q`. */
  lemma MissingCharExcludes(s: string, q: string, k: nat)
    requires k < |q| && q[k] !in s
    ensures !Includes(s, q)
  {
    forall i | 0 <= i <= |s| - |q| ensures !OccursAt(s, q, i) {
      assert s[i..i + |q|][k] == s[i + k];
      assert s[i + k] in s;
    }
  }

  /** Searches `s` for `q` position by position: the executable form of `Includes`. */
  method FindOccurrence(s: string, q: string) returns (found: bool, at: int)
    ensures found <==> Includes(s, q)
    ensures found ==> OccursAt(s, q, at)
  {
    at := 0;
    if |q| > |s| {
      found := false;
      return;
    }
    while at <= |s| - |q|
      invariant 0 <= at <= |s| - |q| + 1
      invariant forall j :: 0 <= j < at ==> !OccursAt(s, q, j)
    {
      if s[at..at + |q|] == q {
        assert OccursAt(s, q, at);
        found := true;
        return;
      }
      at := at + 1;
    }
    found := false;
  }

  /** The characters JavaScript's `trim` removes: WhiteSpace and LineTerminator. */
  predicate IsSpace(c: char)
  {
    || c == ' ' || c == '\t' || c == '\n' || c == '\r'
    || c == '\U{000B}' || c == '\U{000C}' || c == '\U{00A0}' || c == '\U{1680}'
    || ('\U{2000}' <= c <= '\U{200A}')
    || c == '\U{2028}' || c == '\U{2029}' || c == '\U{202F}' || c == '\U{205F}'
    || c == '\U{3000}' || c == '\U{FEFF}'
  }

  predicate AllSpace(s: string)
  {
    forall i :: 0 <= i < |s| ==> IsSpace(s[i])
  }

  /** Lower-casing touches letters only, so it keeps a string all white space or not. */
  lemma LowerKeepsSpace(s: string)
    ensures AllSpace(Lower(s)) <==> AllSpace(s)
  {
    forall i | 0 <= i < |s| ensures IsSpace(Lower(s)[i]) <==> IsSpace(s[i]) {
      assert Lower(s)[i] == LowerChar(s[i]);
    }
  }

  /** The number of white-space characters `s` starts with. */
  function LeadingSpace(s: string): (k: nat)
    ensures k <= |s|
    ensures forall i :: 0 <= i < k ==> IsSpace(s[i])
    ensures k < |s| ==> !IsSpace(s[k])
  {
    if |s| > 0 && IsSpace(s[0]) then 1 + LeadingSpace(s[1..]) else 0
  }

  /** The length of `s` once its trailing white space is removed. */
  function TextEnd(s: string): (k: nat)
    ensures k <= |s|
    ensures forall i :: k <= i < |s| ==> IsSpace(s[i])
    ensures k > 0 ==> !IsSpace(s[k - 1])
  {
    if |s| > 0 && IsSpace(s[|s| - 1]) then TextEnd(s[..|s| - 1]) else |s|
  }

  /** `String.prototype.trim`: `s` without its leading and trailing white space. */
  function Trim(s: string): (r: string)
    ensures LeadingSpace(s) + |r| <= |s|
    ensures forall i :: 0 <= i < |r| ==> r[i] == s[LeadingSpace(s) + i]
    ensures forall i :: 0 <= i < LeadingSpace(s) ==> IsSpace(s[i])
    ensures forall i :: LeadingSpace(s) + |r| <= i < |s| ==> IsSpace(s[i])
    ensures |r| > 0 ==> !IsSpace(r[0]) && !IsSpace(r[|r| - 1])
  {
    var a := LeadingSpace(s);
    var b := TextEnd(s);
    if b <= a then "" else s[a..b]
  }

  /** `trim()` is empty exactly when the string is all white space. */
  lemma TrimEmptyIffAllSpace(s: string)
    ensures Trim(s) == "" <==> AllSpace(s)
  {
  }

  /** Trimming twice is trimming once. */
  lemma TrimIdempotent(s: string)
    ensures Trim(Trim(s)) == Trim(s)
  {
    var r := Trim(s);
    if |r| > 0 {
      assert LeadingSpace(r) == 0;
      assert TextEnd(r) == |r|;
      assert r[0..|r|] == r;
    }
  }

  /** The decimal digit for `d`. */
  function Digit(d: nat): (c: char)
    requires d < 10
    ensures '0' <= c <= '9'
  {
    ('0' as int + d) as char
  }

  /** `Number.prototype.toString()` for a non-negative integer. */
  function Decimal(n: nat): (r: string)
    ensures |r| > 0
    ensures forall i :: 0 <= i < |r| ==> '0' <= r[i] <= '9'
    ensures |r| > 1 ==> r[0] != '0'
  {
    if n < 10 then [Digit(n)] else Decimal(n / 10) + [Digit(n % 10)]
  }

  /** The value a string of digits denotes. */
  function DigitsValue(s: string): nat
    requires forall i :: 0 <= i < |s| ==> '0' <= s[i] <= '9'
  {
    if |s| == 0 then 0 else DigitsValue(s[..|s| - 1]) * 10 + (s[|s| - 1] as int - '0' as int)
  }

  /** Reading back the decimal rendering gives the number: distinct timestamps give distinct texts. */
  lemma {:induction false} DecimalRoundTrip(n: nat)
    ensures DigitsValue(Decimal(n)) == n
  {
    if n >= 10 {
      DecimalRoundTrip(n / 10);
      var r := Decimal(n);
      assert r[..|r| - 1] == Decimal(n / 10);
    }
  }

  lemma DecimalInjective(m: nat, n: nat)
    requires Decimal(m) == Decimal(n)
    ensures m == n
  {
    DecimalRoundTrip(m);
    DecimalRoundTrip(n);
  }

  /** Joins path segments with `/`, each preceded by a slash: ["a","b"] gives "/a/b". */
  function JoinPath(segments: seq<string>): (r: string)
    ensures |segments| > 0 ==> |r| > 0 && r[0] == '/'
  {
    if |segments| == 0 then "" else JoinPath(segments[..|segments| - 1]) + "/" + segments[|segments| - 1]
  }

  /** Adding a segment appends a slash and the segment. */
  lemma JoinPathSnoc(segments: seq<string>, last: string)
    ensures JoinPath(segments + [last]) == JoinPath(segments) + "/" + last
  {
    assert (segments + [last])[..|segments|] == segments;
  }

  /** Splits a path into the segments that follow each `/` (text before the first `/` is a segment too). */
  function SplitPath(path: string): (r: seq<string>)
    decreases |path|
  {
    if |path| == 0 then []
    else
      var i := LastSlash(path);
      if i.None? then [path]
      else SplitPath(path[..i.value]) + [path[i.value + 1..]]
  }

  /** The position of the last `/` in `s`. */
  function LastSlash(s: string): (r: Option<nat>)
    ensures r.Some? ==> r.value < |s| && s[r.value] == '/' && '/' !in s[r.value + 1..]
    ensures r.None? ==> '/' !in s
  {
    if |s| == 0 then None
    else if s[|s| - 1] == '/' then Some(|s| - 1)
    else
      var r := LastSlash(s[..|s| - 1]);
      assert s == s[..|s| - 1] + [s[|s| - 1]];
      if r.None? then None
      else (assert s[r.value + 1..] == s[..|s| - 1][r.value + 1..] + [s[|s| - 1]]; r)
  }

  /** Segments without slashes survive the round trip through a path. */
  lemma {:induction false} SplitJoin(segments: seq<string>)
    requires forall k :: 0 <= k < |segments| ==> '/' !in segments[k]
    ensures SplitPath(JoinPath(segments)) == segments
  {
    if |segments| > 0 {
      var init := segments[..|segments| - 1];
      var last := segments[|segments| - 1];
      var prefix := JoinPath(init);
      var path := prefix + "/" + last;
      LastSlashOf(prefix, last);
      assert path[..|prefix|] == prefix;
      assert path[|prefix| + 1..] == last;
      SplitJoin(init);
      assert segments == init + [last];
    }
  }

  /** A slash with no slash after it is the last slash. */
  lemma {:induction false} LastSlashIs(s: string, k: nat)
    requires k < |s| && s[k] == '/' && '/' !in s[k + 1..]
    ensures LastSlash(s) == Some(k)
  {
    if k < |s| - 1 {
      assert s[|s| - 1] == s[k + 1..][|s| - 2 - k];
      var t := s[..|s| - 1];
      assert t[k + 1..] == s[k + 1..|s| - 1];
      LastSlashIs(t, k);
    }
  }

  lemma LastSlashOf(prefix: string, last: string)
    requires '/' !in last
    ensures LastSlash(prefix + "/" + last) == Some(|prefix|)
  {
    var s := prefix + "/" + last;
    assert s[|prefix| + 1..] == last;
    LastSlashIs(s, |prefix|);
  }
}

=== FILE: viewer.dfy ===
/** The page navigation of the PDF viewer: the page count reported by the
    document loader and the current page number. */
module Viewer {

  import opened Seqs

  /** `numPages` is null until the document reports its page count. */
  datatype State = State(numPages: Option<nat>, page: int)

  /** The viewer's first state. */
  const Initial: State := State(None, 1)

  /** The bound `page < numPages` compares against: a null count converts to 0. */
  function Limit(s: State): int
  {
    if s.numPages.Some? then s.numPages.value else 0
  }

  /** The page stays between 1 and the page count (1 while none is known). */
  predicate Valid(s: State)
  {
    1 <= s.page && (s.page == 1 || s.page <= Limit(s))
  }

  /** `onDocumentLoadSuccess`: record the count and go back to the first page. */
  function LoadSuccess(s: State, numPages: nat): (r: State)
    ensures r.numPages == Some(numPages) && r.page == 1
    ensures Valid(r)
  {
    State(Some(numPages), 1)
  }

  /** `handlePrevPage`. */
  function Prev(s: State): (r: State)
    ensures r.numPages == s.numPages
    ensures s.page > 1 ==> r.page == s.page - 1
    ensures s.page <= 1 ==> r == s
    ensures Valid(s) ==> Valid(r)
  {
    if s.page > 1 then s.(page := s.page - 1) else s
  }

  /** `handleNextPage`. */
  function Next(s: State): (r: State)
    ensures r.numPages == s.numPages
    ensures s.page < Limit(s) ==> r.page == s.page + 1
    ensures s.page >= Limit(s) ==> r == s
    ensures Valid(s) ==> Valid(r)
  {
    if s.page < Limit(s) then s.(page := s.page + 1) else s
  }

  /** The toolbar's `disabled` conditions. */
  predicate PrevDisabled(s: State)
  {
    s.page <= 1
  }

  predicate NextDisabled(s: State)
  {
    s.numPages.None? || s.numPages.value == 0 || s.page >= s.numPages.value
  }

  /** A button does nothing exactly when it is shown disabled. */
  lemma NoOpIffDisabled(s: State)
    requires Valid(s)
    ensures Prev(s) == s <==> PrevDisabled(s)
    ensures Next(s) == s <==> NextDisabled(s)
  {
  }

  /** Next undoes prev and prev undoes next, away from the ends. */
  lemma PrevNextInverse(s: State)
    requires Valid(s)
    ensures s.page > 1 ==> Next(Prev(s)) == s
    ensures s.page < Limit(s) ==> Prev(Next(s)) == s
  {
  }

  /** The first state is valid, and both buttons start disabled and inert. */
  lemma InitialIsInert()
    ensures Valid(Initial)
    ensures PrevDisabled(Initial) && NextDisabled(Initial)
    ensures Prev(Initial) == Initial && Next(Initial) == Initial
  {
  }

  /** Before the count arrives, next never moves. */
  lemma NextBeforeLoad(s: State)
    requires Valid(s) && s.numPages.None?
    ensures Next(s) == s
  {
  }

  /** `k` presses of next advance `k` pages but stop at the last one. */
  function NextTimes(s: State, k: nat): (r: State)
    ensures Valid(s) ==> Valid(r)
    decreases k
  {
    if k == 0 then s else NextTimes(Next(s), k - 1)
  }

  lemma {:induction false} NextTimesStopsAtLast(s: State, k: nat)
    requires Valid(s)
    ensures NextTimes(s, k).page == if s.page + k <= Limit(s) then s.page + k
                                    else if s.page < Limit(s) then Limit(s) else s.page
    decreases k
  {
    if k > 0 {
      NextTimesStopsAtLast(Next(s), k - 1);
    }
  }
}
